=== FILE: README.md ===
# Shodan notifier: a Dafny model of its data pipeline

Two scripts make up the repository. Both look up a list of IP addresses on
Shodan and turn every host record into one comma-separated row per open
service, in the form `ip,port,os,hostnames,domains,product,version,vulns,timestamp`.
They sort the rows by IP address (as a string) and port (as an integer),
number them `1..N`, and send a text report to Slack.

- `py-shodan-notifier.py` lists every row.
- `py-shodan-diff-notifier.py` keeps the previous snapshot in
  `last_result.csv`. On later runs it reports only the rows that disappeared
  (decrements) and the rows that appeared (increments). To compare, it
  projects each numbered row onto its identity columns, dropping the sequence
  number and the timestamp. It runs `difflib.unified_diff` over the two
  projections and maps every `-`/`+` line back to the first full row that
  contains it as a substring.

The model is functional. Records are immutable datatypes, rows are strings,
and every step is a pure function with a contract:

| module | file | models |
|---|---|---|
| `Wrappers` | wrappers.dfy | `Option`, which stands for a missing key or a Python exception |
| `Text` | text.dfy | `str.split` / `str.join` on one character, `str(n)` and `int(s)` on decimal ports, Python's code-point ordering of `str`, the substring test `in` |
| `Normalizer` | normalizer.dfy | `fetch_scan_result` of both scripts (a `Variant` picks the script) and the main loop over the address list |
| `Sorter` | sorter.dfy | `sort_result`: a stable insertion sort by `(ip, int(port))`, then numbering |
| `Projection` | projection.dfy | `slice_columns` |
| `Diff` | diff.dfy | `get_diffs`, with `unified_diff` represented by any well-formed edit script |
| `Report` | report.dfy | the report text of both scripts and one whole run of each |

The line diff is the one part the model does not compute. `Diff.WellFormed`
describes what is assumed of `unified_diff(a, b)`:

- walking its edit script (context, unprinted common lines, deletions,
  insertions, hunk headers) reproduces `a` on the old side and `b` on the
  new side;
- it reports nothing for equal inputs;
- when it reports anything, its output starts with the `---` and `+++`
  headers and then a hunk header.

Every statement about `get_diffs` holds for every such script.

The recovery of full rows is modelled as written: each `-` or `+` line brings
the first row, in file order, that contains the projected line. This row
exists, because the projection of a row is a substring of it
(`Diff.ProjectedLinesRecoverable`). It is not always the row the line was
projected from: `Diff.FirstMatchMayBeAnotherRow` gives two rows where the
search returns the other one. The same goes for a variable the loop never
resets: when a keyword is found nowhere, `original` keeps the previous row,
or is unassigned and Python raises `NameError`. The model threads that value
through (`Diff.Classify`), although with a well-formed script it is never
needed.

## Model

| member | source | states |
|---|---|---|
| Text.Split | py-shodan-diff-notifier.py:64 | `str.split` on one character always gives at least one piece, and no piece holds the separator; with `Text.JoinSplit` (joining the pieces gives the string back) this fixes the pieces |
| Text.NatToString | py-shodan-diff-notifier.py:73 | `str(n)` of a non-negative integer is a non-empty string of decimal digits, which `Text.ParseNatToString` reads back as `n` |
| Text.ParseDecimal | py-shodan-diff-notifier.py:68 | `int(s)` succeeds exactly on non-empty digit strings (the other forms Python accepts are listed below) |
| Text.JoinSplit | py-shodan-diff-notifier.py:72-74 | `",".join(s.split(","))` gives `s` back, for every string |
| Text.SplitJoin | py-shodan-diff-notifier.py:64 | splitting a join of separator-free pieces gives back exactly those pieces |
| Text.ParseNatToString | py-shodan-diff-notifier.py:68 | `int(str(n)) == n` for every port number, so the sort key reads back the port that was written |
| Text.StrLtTotal | py-shodan-diff-notifier.py:68 | Python's ordering of distinct strings is total, so any two IP strings are comparable |
| Text.StrLtTransitive | py-shodan-diff-notifier.py:68 | Python's ordering of strings is transitive |
| Text.SplitLast | py-shodan-diff-notifier.py:139-141 | splitting a string that ends in a separator and a separator-free piece gives the split of the front followed by that piece, whatever separators the front holds |
| Normalizer.RowSplitsIntoFields | py-shodan-diff-notifier.py:21-51 | a row splits on "," into exactly 9 fields in column order: the ip; a port that parses back to the record's port; "None" for a missing `os` key, "-" for an explicit None, else the name; product and version give "-" when the key is missing and "None" when it holds JSON null; a missing `vulns` gives "-"; the timestamp followed by a newline |
| Normalizer.DiffRowLayout | py-shodan-diff-notifier.py:34-47 | in the diff script an empty hostname or domain list gives "-", and the vulnerability ids are sorted before they are joined with the vertical-bar character |
| Normalizer.PlainRowLayout | py-shodan-notifier.py:31-40 | in the plain script hostnames and domains are always joined with the vertical-bar character (empty list gives an empty field), and the vulnerability ids are joined in dict order |
| Normalizer.Row | py-shodan-diff-notifier.py:51 | whatever the fields hold, a row opens with the ip and a comma and ends with "\n"; when the ip has no comma, the row's first two comma-separated fields read back as the ip and the service's port |
| Normalizer.SortStrings | py-shodan-diff-notifier.py:46-47 | the sorted vulnerability ids are a permutation of the dict keys, in non-decreasing string order |
| Normalizer.SortedUnique | py-shodan-diff-notifier.py:47 | two sorted lists with the same elements are equal, so `sorted` has a single possible outcome |
| Normalizer.VulnsOrderIndependent | py-shodan-diff-notifier.py:44-47 | two vulnerability dicts with the same keys give the same text, whatever their iteration order |
| Normalizer.PlainVulnsOrderDependent | py-shodan-notifier.py:37-40 | in the plain script two different non-empty id lists give different texts, in particular the same ids in another order, as long as no id holds the vertical bar |
| Normalizer.Fetch | py-shodan-diff-notifier.py:21-58 | a failed lookup gives no rows; a host gives one row per service, in `data` order; every row ends in a newline, and when the ip has no comma the i-th row's first two fields are the ip and the i-th service's port |
| Normalizer.Collect | py-shodan-diff-notifier.py:155-167 | the main loop yields one row per service of every host found (failed lookups add none), each ending in a newline; their order is stated by `Normalizer.CollectAppend` and `Normalizer.FailedLookupSkipped` |
| Normalizer.FailedLookupSkipped | py-shodan-diff-notifier.py:155-167 | a failed lookup in the middle of the address list contributes nothing and leaves the rows of the other addresses unchanged and in order |
| Normalizer.CollectAppend | py-shodan-notifier.py:80-92 | the rows of two address lists in a row are the rows of the first followed by the rows of the second |
| Sorter.ParseKey | py-shodan-diff-notifier.py:68 | a row has a sort key exactly when it has at least two fields and the second is a decimal number; the key's ip is the first field and its port is the value of the second |
| Sorter.KeyLeTotal | py-shodan-diff-notifier.py:68 | any two keys are comparable under tuple ordering |
| Sorter.KeyLeTransitive | py-shodan-diff-notifier.py:68 | tuple ordering of keys is transitive |
| Sorter.Insert | py-shodan-diff-notifier.py:68 | inserting into key-ordered rows keeps them key-ordered and adds exactly the one row |
| Sorter.Sort | py-shodan-diff-notifier.py:68 | the sorted rows are a permutation of the input, in non-decreasing key order |
| Sorter.SortStable | py-shodan-diff-notifier.py:68 | for every key, the rows with that key keep their input order (the sort is stable) |
| Sorter.SortedPairwise | py-shodan-diff-notifier.py:68 | in sorted output every earlier row's key is at most every later row's |
| Sorter.SortIdempotent | py-shodan-diff-notifier.py:68 | sorting rows that are already in key order leaves them unchanged |
| Sorter.SortRows | py-shodan-diff-notifier.py:63-68 | sorting fails exactly when some row has no key; otherwise it gives a key-ordered permutation |
| Sorter.NumberRow | py-shodan-diff-notifier.py:73-74 | inserting the number as a new first field and joining on "," gives the number, a comma, and the row unchanged |
| Sorter.NumberRowInverse | py-shodan-diff-notifier.py:71-75 | the first field of a numbered row is the number, which parses back to its value, and dropping that field gives the row back |
| Sorter.Number | py-shodan-diff-notifier.py:71-77 | line i carries the number i+1 followed by the i-th sorted row |
| Sorter.SortResult | py-shodan-notifier.py:53-70 | `sort_result` fails (Python raises) exactly when some row has no key, and otherwise keeps the number of rows |
| Sorter.SortResultCorrect | py-shodan-diff-notifier.py:60-77 | the output numbers are "1".."N" in order; stripping them gives a permutation of the input, ordered by (ip, port), where rows of equal key keep their input order |
| Projection.SliceRow | py-shodan-diff-notifier.py:136-144 | the projection is the text strictly between the first and last comma of the line (empty for fewer than three fields), so it is a substring of the line |
| Projection.SliceColumns | py-shodan-diff-notifier.py:136-144 | one projection per input line, in the same order; each is a substring of its line and, when the line has at least three fields, the line is its first field, a comma, the projection, a comma and its last field; otherwise the projection is empty |
| Projection.ProjectNumberedRow | py-shodan-diff-notifier.py:139-142 | a numbered row `n,f0,...,f8` whose timestamp has no comma projects to `f0,...,f7`: the identity columns without the number and the timestamp, even when those columns hold commas |
| Projection.VolatileColumnsIgnored | py-shodan-diff-notifier.py:95-97 | rows differing only in sequence number and timestamp have the same projection, whatever commas the identity columns hold, as long as the timestamps have none |
| Diff.FirstContaining | py-shodan-diff-notifier.py:111-114 | the search loop stops at the first row containing the keyword: that row contains it and no earlier one does; finding none means no row contains it |
| Diff.Lookup | py-shodan-diff-notifier.py:107-124 | after the search loop `original` is the first row of the snapshot containing the keyword when there is one, and otherwise the value it held before; it is unset exactly when it was unset before and no row contains the keyword |
| Diff.Classify | py-shodan-diff-notifier.py:106-126 | the loop over the diff lines cannot fail once `original` holds a row, and every row it reports comes from one of the two snapshots or is that `original` |
| Diff.DiffSections | py-shodan-diff-notifier.py:79-126 | a diff without changes gives two empty sections, and every reported decrement or increment is a row of the last or the current snapshot |
| Diff.RecoverAll | py-shodan-diff-notifier.py:106-124 | each recovered row belongs to the snapshot and contains its keyword |
| Diff.ClassifyEmit | py-shodan-diff-notifier.py:106-126 | over the printed hunks, every "-" line adds the first containing row of the last snapshot, every "+" line the first containing row of the current one, in emission order; context and hunk-header lines add nothing |
| Diff.SkipFirstHunk | py-shodan-diff-notifier.py:99-104 | skipping the first three lines of the diff drops the two file headers and the first hunk header and no deleted or inserted line |
| Diff.DelLinesOnOldSide | py-shodan-diff-notifier.py:100 | every deleted line is a line of the old projection |
| Diff.InsLinesOnNewSide | py-shodan-diff-notifier.py:100 | every inserted line is a line of the new projection |
| Diff.ProjectedLinesRecoverable | py-shodan-diff-notifier.py:106-123 | every line of a snapshot's projection is found in some row of that snapshot, so the search never comes up empty |
| Diff.DiffSectionsRecover | py-shodan-diff-notifier.py:79-126 | for every well-formed diff, `get_diffs` raises nothing, and its sections hold the first containing row for each deleted line and for each inserted line, in diff order |
| Diff.EqualProjectionsNoDiff | py-shodan-diff-notifier.py:99-126 | equal projections give two empty sections |
| Diff.OldOnlyIsDeleted | py-shodan-diff-notifier.py:100 | a line present only in the old projection is among the deleted lines |
| Diff.NewOnlyIsInserted | py-shodan-diff-notifier.py:100 | a line present only in the new projection is among the inserted lines |
| Diff.DeletedLineReported | py-shodan-diff-notifier.py:107-115 | each deleted line puts its first containing row of the last snapshot into the decrements |
| Diff.InsertedLineReported | py-shodan-diff-notifier.py:116-124 | each inserted line puts its first containing row of the current snapshot into the increments |
| Diff.VanishedRowReported | py-shodan-diff-notifier.py:107-115 | a previous row whose projection is gone from the current snapshot is reported: the first row containing its projection is among the decrements |
| Diff.AppearedRowReported | py-shodan-diff-notifier.py:116-124 | a current row whose projection was absent from the last snapshot is reported: the first row containing its projection is among the increments |
| Diff.FirstMatchMayBeAnotherRow | py-shodan-diff-notifier.py:111-114 | for any two numbered rows (comma-free timestamp) with the same ip and port that differ only in that the first row's vulnerability list extends the second's, the search for the second row's projection returns the first row, whose projection is a different line |
| Report.ConcatAt | py-shodan-diff-notifier.py:179-180 | the concatenated rows hold every row in order, each at its own place |
| Report.ConcatAppend | py-shodan-notifier.py:96-97 | concatenating two row lists one after the other equals concatenating them together |
| Report.DiffReport | py-shodan-diff-notifier.py:172-187 | the diff script's report fails only through the `NameError` of `get_diffs`, which needs a previous snapshot; every report opens with the dated header and ends with the footer |
| Report.PlainReport | py-shodan-notifier.py:74-100 | the plain report opens with the dated header and column line and ends with the footer, and the rows in between make up the rest of its length |
| Report.RunDiff | py-shodan-diff-notifier.py:155-194 | a diff run fails only when some row has no sort key or when there is a previous snapshot (the `NameError` path); a successful run saves the sorted, numbered snapshot, one line per collected row, and its report opens with the dated header |
| Report.RunPlain | py-shodan-notifier.py:80-100 | a plain run fails exactly when some collected row has no sort key, and its report otherwise opens with the dated header |
| Report.FirstRunListsEveryRow | py-shodan-diff-notifier.py:172-187 | without a previous snapshot the report is the header, the column line, every sorted row in order and the footer |
| Report.IncrementalReportLayout | py-shodan-diff-notifier.py:128-133 | with a previous snapshot the report is the header, the decrement header and rows (or "No results"), a blank line, the increment header and rows (or "No results"), then the footer |
| Report.UnchangedReport | py-shodan-diff-notifier.py:128-133 | snapshots equal up to numbers and timestamps give "No results" in both sections |
| Report.PlainReportListsEveryRow | py-shodan-notifier.py:74-100 | the plain report is the dated header with the column line, every sorted row in order, the separator and "Have a good day!" |
| Report.CollectedRowsKeyed | py-shodan-diff-notifier.py:155-170 | every row built from hosts whose ip has no comma has a sort key, so sorting cannot raise |
| Report.RowKey | py-shodan-diff-notifier.py:51 | when the ip has no comma, the sort key of a row is its host's ip and its service's port, whatever the other fields hold |
| Report.PlainRunSucceeds | py-shodan-notifier.py:80-100 | a plain run on hosts whose ip has no comma always produces the report of the sorted, numbered rows |
| Report.DiffRunSucceeds | py-shodan-diff-notifier.py:155-194 | a diff run on hosts whose ip has no comma, with a well-formed diff, always produces a report and saves the sorted, numbered rows as the next snapshot |

## Left out

- The Shodan lookup (`api.host`) and its `APIError` are not modelled. The
  run takes the lookup results as a list of `Option<Host>`, and `None` is a
  failed lookup, which contributes no rows.
- The Slack upload (`files_upload`) and its `SlackApiError` handling are a
  network sink.
- File I/O is not modelled: reading `iplist.txt`, reading and writing
  `last_result.csv` and `logs/<date>_result.csv`, and loading `.env`. The
  previous snapshot is an `Option<seq<string>>` parameter, with `None` when
  the file does not exist. `Report.RunDiff` returns the snapshot that would be
  written.
- `time.sleep(1)` only paces the lookups and is left out.
- `dt.date.today()` is a clock: the date is a string parameter.
- The matching algorithm of `difflib.unified_diff` (SequenceMatcher, junk
  heuristics) is not modelled. It is represented by any edit script
  satisfying `Diff.WellFormed`, and the text of a hunk's range header is
  left abstract.
- Dict iteration order is an input: a service's vulnerability ids arrive as
  a sequence in that order.
- Ports are natural numbers rendered in decimal. Other JSON value types for
  `port`, and a missing required key (`ip_str`, `data`, `port`, `hostnames`,
  `domains`, `timestamp`, which Python reports as `KeyError`), are not
  modelled.
- Text.ParseDecimal: accepts only non-empty digit strings, so it is weaker
  than Python's `int()`, which also accepts surrounding whitespace, a sign
  and underscores. The rows the scripts build never carry those forms in the
  port field.
- Sorter.ParseKey: inherits the digit-only parsing of `Text.ParseDecimal`.
  A row whose second field is, say, " 80" sorts in Python but has no key
  here.
- Normalizer.RowSplitsIntoFields: holds only for records without a comma in
  any field. A comma inside a free-text field (product, version, a
  hostname, ...) shifts every later column, so splitting the row no longer
  gives back the fields.
- Normalizer.DiffRowLayout: assumes comma-free records, as above.
- Normalizer.PlainRowLayout: assumes comma-free records, as above.
- Normalizer.Service: a `vulns` key holding JSON null cannot be
  represented. Python would call `.keys()` on `None` and raise
  `AttributeError` (py-shodan-diff-notifier.py:46, py-shodan-notifier.py:39).
  The same goes for `hostnames` or `domains` holding null, where the plain
  script's `"|".join` raises `TypeError`. An explicit null `os`, `product`
  or `version` is modelled.
- Normalizer.Collect: does not promise one row per line of text. A field
  holding a newline (a product "a\nb", say) makes one row span two lines of
  the report and of `last_result.csv`. The model keeps rows as list items
  and takes the previous snapshot as the list of rows that was written, so
  the re-split by `readlines()` on the next run is not modelled.
- Logging (`print` on an API or Slack error) is not modelled.

=== FILE: diff.dfy ===
/** The diff engine (`get_diffs` of the diff script). The line diff itself is
    `difflib.unified_diff`, whose matching heuristics are not part of this
    model: it is represented by any edit script that turns the old projection
    into the new one. What is modelled exactly is how the script consumes the
    diff text: it skips the first three lines, and maps every "-" and "+" line
    back to the first full snapshot line containing it. */
module Diff {
  import opened Wrappers
  import opened Text
  import opened Projection

  /** One step of an edit script. `Keep` is a common line shown as context,
      `Gap` a common line outside every hunk (not printed), `Del`/`Ins` a
      removed/added line, `Hunk` a range header `@@ ... @@`. */
  datatype Op = Keep(line: string) | Gap(line: string) | Del(line: string) | Ins(line: string) | Hunk(range: string)

  /** The lines of the old sequence the script walks through. */
  function OldSide(script: seq<Op>): seq<string>
  {
    if |script| == 0 then []
    else
      (match script[0]
       case Keep(l) => [l]
       case Gap(l) => [l]
       case Del(l) => [l]
       case _ => []) + OldSide(script[1..])
  }

  /** The lines of the new sequence the script walks through. */
  function NewSide(script: seq<Op>): seq<string>
  {
    if |script| == 0 then []
    else
      (match script[0]
       case Keep(l) => [l]
       case Gap(l) => [l]
       case Ins(l) => [l]
       case _ => []) + NewSide(script[1..])
  }

  /** The removed lines, in script order. */
  function DelLines(script: seq<Op>): seq<string>
  {
    if |script| == 0 then []
    else (if script[0].Del? then [script[0].line] else []) + DelLines(script[1..])
  }

  /** The added lines, in script order. */
  function InsLines(script: seq<Op>): seq<string>
  {
    if |script| == 0 then []
    else (if script[0].Ins? then [script[0].line] else []) + InsLines(script[1..])
  }

  predicate HasChange(script: seq<Op>)
  {
    exists i :: 0 <= i < |script| && (script[i].Del? || script[i].Ins?)
  }

  /** The first printed step is a hunk header (only unprinted common lines
      may come before it). */
  predicate HunkFirst(script: seq<Op>)
  {
    |script| > 0 && (script[0].Hunk? || (script[0].Gap? && HunkFirst(script[1..])))
  }

  /** What is assumed of `difflib.unified_diff(a, b)`: its script walks
      through `a` on the old side and `b` on the new side, reports no change
      for equal inputs, and opens with a hunk header when it reports any. */
  predicate WellFormed(script: seq<Op>, a: seq<string>, b: seq<string>)
  {
    && OldSide(script) == a
    && NewSide(script) == b
    && (a == b ==> !HasChange(script))
    && (HasChange(script) ==> HunkFirst(script))
  }

  /** The printed form of one step. */
  function EmitOp(op: Op): seq<string>
  {
    match op
    case Keep(l) => [[' '] + l]
    case Gap(_) => []
    case Del(l) => [['-'] + l]
    case Ins(l) => [['+'] + l]
    case Hunk(r) => ["@@ " + r + " @@\n"]
  }

  function Emit(script: seq<Op>): seq<string>
  {
    if |script| == 0 then [] else EmitOp(script[0]) + Emit(script[1..])
  }

  /** The lines `unified_diff` yields: nothing when nothing changed, else the
      two file headers followed by the hunks. */
  function UnifiedDiff(script: seq<Op>): seq<string>
  {
    if HasChange(script) then ["--- \n", "+++ \n"] + Emit(script) else []
  }

  // ---------------------------------------------------------------------
  // recovering the full rows

  /** The loop `for result in rows: if keyword in result: ... break`: the
      index of the first row containing `kw`. */
  function FirstContaining(rows: seq<string>, kw: string): (r: Option<nat>)
    ensures r.Some? ==> r.value < |rows| && IsSubstring(kw, rows[r.value])
    ensures r.Some? ==> forall j :: 0 <= j < r.value ==> !IsSubstring(kw, rows[j])
    ensures r.None? ==> forall j :: 0 <= j < |rows| ==> !IsSubstring(kw, rows[j])
  {
    if |rows| == 0 then None
    else if IsSubstring(kw, rows[0]) then Some(0)
    else
      match FirstContaining(rows[1..], kw)
      case None => None
      case Some(i) => Some(i + 1)
  }

  /** The value of `original` after the search loop: the first containing
      row, or else whatever `original` held before (`None` when it was never
      assigned, where Python raises `NameError`). */
  function Lookup(rows: seq<string>, kw: string, original: Option<string>): (r: Option<string>)
    ensures r == original || (r.Some? && r.value in rows && IsSubstring(kw, r.value))
    ensures r.None? <==> original.None? && forall j :: 0 <= j < |rows| ==> !IsSubstring(kw, rows[j])
    ensures FirstContaining(rows, kw).Some? ==> r == Some(rows[FirstContaining(rows, kw).value])
    ensures FirstContaining(rows, kw).None? ==> r == original
  {
    match FirstContaining(rows, kw)
    case Some(i) => Some(rows[i])
    case None => original
  }

  datatype Sections = Sections(decrements: seq<string>, increments: seq<string>)

  /** The body of the loop over the diff lines (after the first three): a
      "-" line adds a row of `last` to the decrements, a "+" line a row of
      `current` to the increments, and any other line nothing. `None` is the
      `NameError` of a keyword found nowhere before `original` was set. Once
      `original` holds a row nothing can fail, and every reported row is a
      row of one of the snapshots or the `original` it started with. */
  function Classify(lines: seq<string>, last: seq<string>, current: seq<string>, original: Option<string>): (r: Option<Sections>)
    ensures original.Some? ==> r.Some?
    ensures r.Some? ==> forall x :: x in r.value.decrements ==> x in last || x in current || Some(x) == original
    ensures r.Some? ==> forall x :: x in r.value.increments ==> x in last || x in current || Some(x) == original
  {
    if |lines| == 0 then Some(Sections([], []))
    else
      var l := lines[0];
      if |l| > 0 && l[0] == '-' then
        match Lookup(last, l[1..], original)
        case None => None
        case Some(o) =>
          match Classify(lines[1..], last, current, Some(o))
          case None => None
          case Some(rest) => Some(Sections([o] + rest.decrements, rest.increments))
      else if |l| > 0 && l[0] == '+' then
        match Lookup(current, l[1..], original)
        case None => None
        case Some(o) =>
          match Classify(lines[1..], last, current, Some(o))
          case None => None
          case Some(rest) => Some(Sections(rest.decrements, [o] + rest.increments))
      else Classify(lines[1..], last, current, original)
  }

  /** `get_diffs` up to the report text: `last` is `last_result`, `current` is
      `sorted_result` and `script` is the diff of their projections. */
  function DiffSections(last: seq<string>, current: seq<string>, script: seq<Op>): (r: Option<Sections>)
    ensures !HasChange(script) ==> r == Some(Sections([], []))
    ensures r.Some? ==> forall x :: x in r.value.decrements ==> x in last || x in current
    ensures r.Some? ==> forall x :: x in r.value.increments ==> x in last || x in current
  {
    var lines := UnifiedDiff(script);
    Classify(if |lines| <= 3 then [] else lines[3..], last, current, None)
  }

  // ---------------------------------------------------------------------
  // reference definition of the recovered rows

  /** Every keyword occurs in some row. */
  predicate Recoverable(rows: seq<string>, kws: seq<string>)
  {
    forall i :: 0 <= i < |kws| ==> FirstContaining(rows, kws[i]).Some?
  }

  /** The first row containing each keyword, keyword by keyword. */
  function RecoverAll(rows: seq<string>, kws: seq<string>): (r: seq<string>)
    requires Recoverable(rows, kws)
    ensures |r| == |kws|
    ensures forall i :: 0 <= i < |r| ==> r[i] in rows && IsSubstring(kws[i], r[i])
  {
    seq(|kws|, i requires 0 <= i < |kws| => rows[FirstContaining(rows, kws[i]).value])
  }

  lemma RecoverableTail(rows: seq<string>, kws: seq<string>)
    requires |kws| > 0 && Recoverable(rows, kws)
    ensures Recoverable(rows, kws[1..])
  {
    forall i | 0 <= i < |kws| - 1
      ensures FirstContaining(rows, kws[1..][i]).Some?
    {
      assert kws[1..][i] == kws[i + 1];
    }
  }

  lemma ClassifyOtherHead(x: string, e: seq<string>, last: seq<string>, current: seq<string>, original: Option<string>)
    requires |x| > 0 && x[0] != '-' && x[0] != '+'
    ensures Classify([x] + e, last, current, original) == Classify(e, last, current, original)
  {
    assert ([x] + e)[1..] == e;
  }

  lemma ClassifyDelHead(l: string, e: seq<string>, last: seq<string>, current: seq<string>, original: Option<string>)
    requires FirstContaining(last, l).Some?
    ensures var o := last[FirstContaining(last, l).value];
      Classify([['-'] + l] + e, last, current, original)
      == (match Classify(e, last, current, Some(o))
          case None => None
          case Some(rest) => Some(Sections([o] + rest.decrements, rest.increments)))
  {
    var x := ['-'] + l;
    assert ([x] + e)[1..] == e;
    assert x[1..] == l;
  }

  lemma ClassifyInsHead(l: string, e: seq<string>, last: seq<string>, current: seq<string>, original: Option<string>)
    requires FirstContaining(current, l).Some?
    ensures var o := current[FirstContaining(current, l).value];
      Classify([['+'] + l] + e, last, current, original)
      == (match Classify(e, last, current, Some(o))
          case None => None
          case Some(rest) => Some(Sections(rest.decrements, [o] + rest.increments)))
  {
    var x := ['+'] + l;
    assert ([x] + e)[1..] == e;
    assert x[1..] == l;
  }

  lemma RecoverAllCons(rows: seq<string>, kws: seq<string>)
    requires |kws| > 0 && Recoverable(rows, kws)
    ensures Recoverable(rows, kws[1..])
    ensures RecoverAll(rows, kws) == [rows[FirstContaining(rows, kws[0]).value]] + RecoverAll(rows, kws[1..])
  {
    RecoverableTail(rows, kws);
    var r, t := RecoverAll(rows, kws), RecoverAll(rows, kws[1..]);
    forall i | 0 < i < |r|
      ensures r[i] == t[i - 1]
    {
      assert kws[1..][i - 1] == kws[i];
    }
  }

  /** Classifying the printed script recovers, in emission order, the first
      containing row for every removed and every added line. */
  lemma {:induction false} ClassifyEmit(s: seq<Op>, last: seq<string>, current: seq<string>, original: Option<string>)
    requires Recoverable(last, DelLines(s)) && Recoverable(current, InsLines(s))
    ensures Classify(Emit(s), last, current, original)
         == Some(Sections(RecoverAll(last, DelLines(s)), RecoverAll(current, InsLines(s))))
    decreases |s|, 1
  {
    if |s| > 0 {
      if s[0].Del? {
        ClassifyEmitDel(s, last, current, original);
      } else if s[0].Ins? {
        ClassifyEmitIns(s, last, current, original);
      } else {
        ClassifyEmitOther(s, last, current, original);
      }
    }
  }

  /** A context line, an unprinted common line or a hunk header adds nothing. */
  lemma {:induction false} ClassifyEmitOther(s: seq<Op>, last: seq<string>, current: seq<string>, original: Option<string>)
    requires |s| > 0 && !s[0].Del? && !s[0].Ins?
    requires Recoverable(last, DelLines(s)) && Recoverable(current, InsLines(s))
    ensures Classify(Emit(s), last, current, original)
         == Some(Sections(RecoverAll(last, DelLines(s)), RecoverAll(current, InsLines(s))))
    decreases |s|, 0
  {
    var rest := s[1..];
    assert Emit(s) == EmitOp(s[0]) + Emit(rest);
    assert DelLines(s) == DelLines(rest) && InsLines(s) == InsLines(rest);
    match s[0]
    case Keep(l) =>
      ClassifyOtherHead([' '] + l, Emit(rest), last, current, original);
      ClassifyEmit(rest, last, current, original);
    case Hunk(r) =>
      ClassifyOtherHead("@@ " + r + " @@\n", Emit(rest), last, current, original);
      ClassifyEmit(rest, last, current, original);
    case Gap(l) =>
      assert Emit(s) == Emit(rest);
      ClassifyEmit(rest, last, current, original);
  }

  /** A removed line adds its first containing row of `last` to the
      decrements, and that row becomes `original`. */
  lemma {:induction false} ClassifyEmitDel(s: seq<Op>, last: seq<string>, current: seq<string>, original: Option<string>)
    requires |s| > 0 && s[0].Del?
    requires Recoverable(last, DelLines(s)) && Recoverable(current, InsLines(s))
    ensures Classify(Emit(s), last, current, original)
         == Some(Sections(RecoverAll(last, DelLines(s)), RecoverAll(current, InsLines(s))))
    decreases |s|, 0
  {
    var rest, l := s[1..], s[0].line;
    assert Emit(s) == [['-'] + l] + Emit(rest);
    assert DelLines(s) == [l] + DelLines(rest);
    assert InsLines(s) == InsLines(rest);
    RecoverAllCons(last, DelLines(s));
    assert DelLines(s)[1..] == DelLines(rest);
    ClassifyDelHead(l, Emit(rest), last, current, original);
    var o := last[FirstContaining(last, l).value];
    ClassifyEmit(rest, last, current, Some(o));
  }

  /** An added line adds its first containing row of `current` to the
      increments, and that row becomes `original`. */
  lemma {:induction false} ClassifyEmitIns(s: seq<Op>, last: seq<string>, current: seq<string>, original: Option<string>)
    requires |s| > 0 && s[0].Ins?
    requires Recoverable(last, DelLines(s)) && Recoverable(current, InsLines(s))
    ensures Classify(Emit(s), last, current, original)
         == Some(Sections(RecoverAll(last, DelLines(s)), RecoverAll(current, InsLines(s))))
    decreases |s|, 0
  {
    var rest, l := s[1..], s[0].line;
    assert Emit(s) == [['+'] + l] + Emit(rest);
    assert InsLines(s) == [l] + InsLines(rest);
    assert DelLines(s) == DelLines(rest);
    RecoverAllCons(current, InsLines(s));
    assert InsLines(s)[1..] == InsLines(rest);
    ClassifyInsHead(l, Emit(rest), last, current, original);
    var o := current[FirstContaining(current, l).value];
    ClassifyEmit(rest, last, current, Some(o));
  }

  /** A leading hunk header prints one line and an unprinted common line
      none; neither is a change. */
  lemma UnchangedHead(s: seq<Op>)
    requires |s| > 0 && (s[0].Hunk? || s[0].Gap?)
    ensures DelLines(s) == DelLines(s[1..]) && InsLines(s) == InsLines(s[1..])
    ensures s[0].Hunk? ==> |Emit(s)| >= 1 && Emit(s)[1..] == Emit(s[1..])
    ensures s[0].Gap? ==> Emit(s) == Emit(s[1..])
  {
    assert Emit(s) == EmitOp(s[0]) + Emit(s[1..]);
  }

  /** Skipping the two file headers and the first hunk header leaves the
      printed form of the rest of the script, which holds every change. */
  lemma {:induction false} SkipFirstHunk(s: seq<Op>) returns (k: nat)
    requires HunkFirst(s)
    ensures k < |s|
    ensures |Emit(s)| >= 1 && Emit(s)[1..] == Emit(s[k + 1..])
    ensures DelLines(s) == DelLines(s[k + 1..]) && InsLines(s) == InsLines(s[k + 1..])
  {
    UnchangedHead(s);
    if s[0].Hunk? {
      k := 0;
    } else {
      var k' := SkipFirstHunk(s[1..]);
      k := k' + 1;
      assert s[1..][k' + 1..] == s[k + 1..];
    }
  }

  lemma {:induction false} DelLinesOnOldSide(s: seq<Op>, i: int)
    requires 0 <= i < |DelLines(s)|
    ensures DelLines(s)[i] in OldSide(s)
  {
    if s[0].Del? {
      if i > 0 {
        DelLinesOnOldSide(s[1..], i - 1);
      }
    } else {
      DelLinesOnOldSide(s[1..], i);
    }
  }

  lemma {:induction false} InsLinesOnNewSide(s: seq<Op>, i: int)
    requires 0 <= i < |InsLines(s)|
    ensures InsLines(s)[i] in NewSide(s)
  {
    if s[0].Ins? {
      if i > 0 {
        InsLinesOnNewSide(s[1..], i - 1);
      }
    } else {
      InsLinesOnNewSide(s[1..], i);
    }
  }

  /** Every projected line occurs in the snapshot it was projected from. */
  lemma ProjectedLinesRecoverable(rows: seq<string>, kws: seq<string>)
    requires forall i :: 0 <= i < |kws| ==> kws[i] in SliceColumns(rows)
    ensures Recoverable(rows, kws)
  {
    forall i | 0 <= i < |kws|
      ensures FirstContaining(rows, kws[i]).Some?
    {
      var cols := SliceColumns(rows);
      assert kws[i] in cols;
      var j :| 0 <= j < |cols| && cols[j] == kws[i];
      assert IsSubstring(kws[i], rows[j]);
    }
  }

  /** The decrements are the first rows of `last` containing each removed
      projection, and the increments the first rows of `current` containing each
      added projection, in diff order; a containing row always exists. */
  lemma DiffSectionsRecover(last: seq<string>, current: seq<string>, script: seq<Op>)
    requires WellFormed(script, SliceColumns(last), SliceColumns(current))
    ensures Recoverable(last, DelLines(script)) && Recoverable(current, InsLines(script))
    ensures DiffSections(last, current, script)
         == Some(Sections(RecoverAll(last, DelLines(script)), RecoverAll(current, InsLines(script))))
  {
    forall i | 0 <= i < |DelLines(script)|
      ensures DelLines(script)[i] in SliceColumns(last)
    {
      DelLinesOnOldSide(script, i);
    }
    forall i | 0 <= i < |InsLines(script)|
      ensures InsLines(script)[i] in SliceColumns(current)
    {
      InsLinesOnNewSide(script, i);
    }
    ProjectedLinesRecoverable(last, DelLines(script));
    ProjectedLinesRecoverable(current, InsLines(script));
    if HasChange(script) {
      var k := SkipFirstHunk(script);
      var lines := UnifiedDiff(script);
      assert lines[3..] == Emit(script)[1..];
      ClassifyEmit(script[k + 1..], last, current, None);
    } else {
      NoChangeNoEdits(script);
    }
  }

  lemma {:induction false} NoChangeNoEdits(s: seq<Op>)
    requires !HasChange(s)
    ensures DelLines(s) == [] && InsLines(s) == []
  {
    if |s| > 0 {
      forall j | 0 <= j < |s| - 1
        ensures !(s[1..][j].Del? || s[1..][j].Ins?)
      {
        assert s[1..][j] == s[j + 1];
      }
      assert !s[0].Del? && !s[0].Ins?;
      NoChangeNoEdits(s[1..]);
    }
  }

  /** Snapshots with equal projections (rows equal up to sequence number and
      timestamp) give no decrements and no increments. */
  lemma EqualProjectionsNoDiff(last: seq<string>, current: seq<string>, script: seq<Op>)
    requires WellFormed(script, SliceColumns(last), SliceColumns(current))
    requires SliceColumns(last) == SliceColumns(current)
    ensures DiffSections(last, current, script) == Some(Sections([], []))
  {
  }

  /** A line that is on the old side only must be deleted by the script. */
  lemma {:induction false} OldOnlyIsDeleted(s: seq<Op>, l: string)
    requires l in OldSide(s) && l !in NewSide(s)
    ensures l in DelLines(s)
  {
    if |s| > 0 {
      assert OldSide(s) == (if s[0].Keep? || s[0].Gap? || s[0].Del? then [s[0].line] else []) + OldSide(s[1..]);
      assert NewSide(s) == (if s[0].Keep? || s[0].Gap? || s[0].Ins? then [s[0].line] else []) + NewSide(s[1..]);
      assert DelLines(s) == (if s[0].Del? then [s[0].line] else []) + DelLines(s[1..]);
      if !(s[0].Del? && s[0].line == l) {
        OldOnlyIsDeleted(s[1..], l);
      }
    }
  }

  /** A line that is on the new side only must be inserted by the script. */
  lemma {:induction false} NewOnlyIsInserted(s: seq<Op>, l: string)
    requires l in NewSide(s) && l !in OldSide(s)
    ensures l in InsLines(s)
  {
    if |s| > 0 {
      assert OldSide(s) == (if s[0].Keep? || s[0].Gap? || s[0].Del? then [s[0].line] else []) + OldSide(s[1..]);
      assert NewSide(s) == (if s[0].Keep? || s[0].Gap? || s[0].Ins? then [s[0].line] else []) + NewSide(s[1..]);
      assert InsLines(s) == (if s[0].Ins? then [s[0].line] else []) + InsLines(s[1..]);
      if !(s[0].Ins? && s[0].line == l) {
        NewOnlyIsInserted(s[1..], l);
      }
    }
  }

  /** Every removed projection brings the first row of `last` containing it
      into the decrements. */
  lemma DeletedLineReported(last: seq<string>, current: seq<string>, script: seq<Op>, l: string)
    requires WellFormed(script, SliceColumns(last), SliceColumns(current))
    requires l in DelLines(script)
    ensures FirstContaining(last, l).Some?
    ensures DiffSections(last, current, script).Some?
    ensures last[FirstContaining(last, l).value] in DiffSections(last, current, script).value.decrements
  {
    DiffSectionsRecover(last, current, script);
    var dels := DelLines(script);
    var j :| 0 <= j < |dels| && dels[j] == l;
    assert RecoverAll(last, dels)[j] == last[FirstContaining(last, l).value];
  }

  /** Every added projection brings the first row of `current` containing it
      into the increments. */
  lemma InsertedLineReported(last: seq<string>, current: seq<string>, script: seq<Op>, l: string)
    requires WellFormed(script, SliceColumns(last), SliceColumns(current))
    requires l in InsLines(script)
    ensures FirstContaining(current, l).Some?
    ensures DiffSections(last, current, script).Some?
    ensures current[FirstContaining(current, l).value] in DiffSections(last, current, script).value.increments
  {
    DiffSectionsRecover(last, current, script);
    var ins := InsLines(script);
    var j :| 0 <= j < |ins| && ins[j] == l;
    assert RecoverAll(current, ins)[j] == current[FirstContaining(current, l).value];
  }

  lemma VanishedLineDeleted(last: seq<string>, current: seq<string>, script: seq<Op>, i: int)
    requires WellFormed(script, SliceColumns(last), SliceColumns(current))
    requires 0 <= i < |last|
    requires SliceRow(last[i]) !in SliceColumns(current)
    ensures SliceRow(last[i]) in DelLines(script)
  {
    var l := SliceRow(last[i]);
    assert SliceColumns(last)[i] == l;
    OldOnlyIsDeleted(script, l);
  }

  lemma AppearedLineInserted(last: seq<string>, current: seq<string>, script: seq<Op>, i: int)
    requires WellFormed(script, SliceColumns(last), SliceColumns(current))
    requires 0 <= i < |current|
    requires SliceRow(current[i]) !in SliceColumns(last)
    ensures SliceRow(current[i]) in InsLines(script)
  {
    var l := SliceRow(current[i]);
    assert SliceColumns(current)[i] == l;
    NewOnlyIsInserted(script, l);
  }

  /** A row of the last snapshot whose projection no longer occurs in the
      current one is reported: the first last-snapshot row containing that
      projection is among the decrements. */
  lemma VanishedRowReported(last: seq<string>, current: seq<string>, script: seq<Op>, i: int)
    requires WellFormed(script, SliceColumns(last), SliceColumns(current))
    requires 0 <= i < |last|
    requires SliceRow(last[i]) !in SliceColumns(current)
    ensures DiffSections(last, current, script).Some?
    ensures FirstContaining(last, SliceRow(last[i])).Some?
    ensures last[FirstContaining(last, SliceRow(last[i])).value] in DiffSections(last, current, script).value.decrements
  {
    VanishedLineDeleted(last, current, script, i);
    DeletedLineReported(last, current, script, SliceRow(last[i]));
  }

  /** A row of the current snapshot whose projection did not occur in the
      last one is reported among the increments. */
  lemma AppearedRowReported(last: seq<string>, current: seq<string>, script: seq<Op>, i: int)
    requires WellFormed(script, SliceColumns(last), SliceColumns(current))
    requires 0 <= i < |current|
    requires SliceRow(current[i]) !in SliceColumns(last)
    ensures DiffSections(last, current, script).Some?
    ensures FirstContaining(current, SliceRow(current[i])).Some?
    ensures current[FirstContaining(current, SliceRow(current[i])).value] in DiffSections(last, current, script).value.increments
  {
    AppearedLineInserted(last, current, script, i);
    InsertedLineReported(last, current, script, SliceRow(current[i]));
  }

  // ---------------------------------------------------------------------
  // the first containing row need not be the row the line came from

  /** Two snapshot lines `1,g0,...,g8` and `2,f0,...,f8` that agree on every
      field except the vulnerability ids, where the first line's list merely
      extends the second's (say "CVE-1|CVE-2" against "CVE-1"). The lines
      share ip and port, so a stable sort keeps either order. When the second
      line is the one removed, the search for its projection stops at the
      first line, and that line is what the decrement section shows. */
  lemma FirstMatchMayBeAnotherRow(f: seq<string>, extra: string)
    requires |f| == 9 && Comma !in f[8]
    requires |extra| > 0
    ensures var g := f[7 := f[7] + extra];
      var last := [NatToString(1) + [Comma] + Join(g, Comma), NatToString(2) + [Comma] + Join(f, Comma)];
      && SliceRow(last[1]) == Join(f[..8], Comma)
      && FirstContaining(last, SliceRow(last[1])) == Some(0)
      && SliceRow(last[0]) != SliceRow(last[1])
  {
    var g := f[7 := f[7] + extra];
    var kw := Join(f[..8], Comma);
    ProjectNumberedRow(2, f);
    ExtendedProjection(f, extra);
    ExtendedContains(f, extra);
    FirstOfTwo(NatToString(1) + [Comma] + Join(g, Comma), NatToString(2) + [Comma] + Join(f, Comma), kw);
  }

  /** The projection of the line with the extended vulnerability list. */
  lemma ExtendedProjection(f: seq<string>, extra: string)
    requires |f| == 9 && Comma !in f[8]
    ensures var g := f[7 := f[7] + extra];
      SliceRow(NatToString(1) + [Comma] + Join(g, Comma)) == Join(f[..8], Comma) + extra
  {
    var g := f[7 := f[7] + extra];
    ExtendLastButOne(f, extra);
    assert g[8] == f[8];
    ProjectNumberedRow(1, g);
  }

  /** The line with the extended vulnerability list contains the other
      line's projection. */
  lemma ExtendedContains(f: seq<string>, extra: string)
    requires |f| == 9
    ensures var g := f[7 := f[7] + extra];
      IsSubstring(Join(f[..8], Comma), NatToString(1) + [Comma] + Join(g, Comma))
  {
    var g := f[7 := f[7] + extra];
    var kw := Join(f[..8], Comma);
    var d := NatToString(1) + [Comma];
    ExtendLastButOne(f, extra);
    assert d + Join(g, Comma) == d + kw + (extra + [Comma] + f[8]);
    SubstringOfConcat(d, kw, extra + [Comma] + f[8]);
  }

  /** The search stops at the first of two rows when that row matches. */
  lemma FirstOfTwo(r0: string, r1: string, kw: string)
    requires IsSubstring(kw, r0)
    ensures FirstContaining([r0, r1], kw) == Some(0)
  {
    assert [r0, r1][0] == r0;
  }

  /** Extending the eighth of nine fields extends the joined projection. */
  lemma ExtendLastButOne(f: seq<string>, extra: string)
    requires |f| == 9
    ensures var g := f[7 := f[7] + extra];
      && Join(g[..8], Comma) == Join(f[..8], Comma) + extra
      && Join(g, Comma) == Join(f[..8], Comma) + extra + [Comma] + f[8]
  {
    var g := f[7 := f[7] + extra];
    JoinLast(f[..8], Comma);
    JoinLast(g[..8], Comma);
    assert g[..8][..7] == f[..8][..7];
    JoinLast(g, Comma);
    assert g[..9][..8] == g[..8];
  }
}

=== FILE: normalizer.dfy ===
/** The record normaliser (`fetch_scan_result` of both scripts, without the
    lookup call): one host record becomes one comma-joined row per service.
    The two scripts differ in how they render empty hostname/domain lists and
    whether vulnerability ids are sorted, so the row layout is parameterised
    by the script it comes from. */
module Normalizer {
  import opened Wrappers
  import opened Text

  /** An optional string entry of a record (`os`, `product`, `version`): the
      key is absent, present as JSON null (Python's `None`), or a string. */
  datatype Entry = Absent | Null | Given(text: string)

  /** One entry of the host's `data` list. `vulns` is `None` when the key is
      absent and otherwise holds the keys of the vulnerability dict in the
      dict's iteration order. */
  datatype Service = Service(
    port: nat,
    hostnames: seq<string>,
    domains: seq<string>,
    product: Entry,
    version: Entry,
    vulns: Option<seq<string>>,
    timestamp: string)

  datatype Host = Host(ip: string, os: Entry, data: seq<Service>)

  /** Which of the two scripts formats the row. */
  datatype Variant = DiffNotifier | PlainNotifier

  const Bar: char := '|'
  const Dash: string := "-"

  // ---------------------------------------------------------------------
  // sorting vulnerability ids (Python's `sorted` on str)

  predicate SortedStrings(s: seq<string>)
  {
    forall i :: 0 < i < |s| ==> StrLe(s[i - 1], s[i])
  }

  lemma StrLeTotal(a: string, b: string)
    ensures StrLe(a, b) || StrLe(b, a)
  {
    if a != b {
      StrLtTotal(a, b);
    }
  }

  lemma StrLeTransitive(a: string, b: string, c: string)
    requires StrLe(a, b) && StrLe(b, c)
    ensures StrLe(a, c)
  {
    if a != b && b != c {
      StrLtTransitive(a, b, c);
    }
  }

  lemma StrLeAntisymmetric(a: string, b: string)
    requires StrLe(a, b) && StrLe(b, a)
    ensures a == b
  {
    StrLtAsymmetric(a, b);
  }

  function InsertString(x: string, s: seq<string>): (r: seq<string>)
    requires SortedStrings(s)
    ensures SortedStrings(r)
    ensures multiset(r) == multiset(s) + multiset{x}
    ensures |r| == |s| + 1
    ensures r[0] == x || (|s| > 0 && r[0] == s[0])
  {
    if |s| == 0 then [x]
    else if StrLe(x, s[0]) then [x] + s
    else
      StrLeTotal(x, s[0]);
      var rest := InsertString(x, s[1..]);
      assert s == [s[0]] + s[1..];
      [s[0]] + rest
  }

  /** Python's `sorted(keys)` on a list of str. */
  function SortStrings(s: seq<string>): (r: seq<string>)
    ensures SortedStrings(r)
    ensures multiset(r) == multiset(s)
  {
    if |s| == 0 then []
    else
      assert s == [s[0]] + s[1..];
      InsertString(s[0], SortStrings(s[1..]))
  }

  lemma {:induction false} SortedHeadIsLeast(s: seq<string>, y: string)
    requires SortedStrings(s)
    requires y in multiset(s)
    ensures StrLe(s[0], y)
  {
    if y != s[0] {
      assert s == [s[0]] + s[1..];
      assert y in multiset(s[1..]);
      SortedHeadIsLeast(s[1..], y);
      StrLeTransitive(s[0], s[1], y);
    }
  }

  /** A multiset of strings has exactly one sorted arrangement. */
  lemma {:induction false} SortedUnique(a: seq<string>, b: seq<string>)
    requires SortedStrings(a) && SortedStrings(b)
    requires multiset(a) == multiset(b)
    ensures a == b
  {
    if |a| == 0 {
      assert |multiset(b)| == 0;
    } else {
      assert a[0] in multiset(a);
      assert |b| > 0;
      assert b[0] in multiset(b);
      SortedHeadIsLeast(a, b[0]);
      SortedHeadIsLeast(b, a[0]);
      StrLeAntisymmetric(a[0], b[0]);
      assert a == [a[0]] + a[1..];
      assert b == [b[0]] + b[1..];
      assert multiset(a) == multiset{a[0]} + multiset(a[1..]);
      assert multiset(b) == multiset{b[0]} + multiset(b[1..]);
      assert multiset(a[1..]) == multiset(a) - multiset{a[0]};
      assert multiset(b[1..]) == multiset(b) - multiset{b[0]};
      SortedUnique(a[1..], b[1..]);
    }
  }

  // ---------------------------------------------------------------------
  // field rendering

  /** `host.get("os", "None")`, with an explicit `None` replaced by "-". */
  function OsText(os: Entry): string
  {
    match os
    case Absent => "None"
    case Null => Dash
    case Given(n) => n
  }

  /** `item.get(key, "-")` written by an f-string: "-" for an absent key,
      "None" for an explicit null. */
  function EntryText(e: Entry): string
  {
    match e
    case Absent => Dash
    case Null => "None"
    case Given(t) => t
  }

  /** Hostnames and domains: the diff script writes "-" for an empty list,
      the plain script joins whatever is there. */
  function ListText(v: Variant, xs: seq<string>): string
  {
    if v == DiffNotifier && |xs| == 0 then Dash else Join(xs, Bar)
  }

  /** Vulnerability ids: "-" when the key is absent; otherwise the dict keys
      joined with "|", sorted first by the diff script only. */
  function VulnsText(v: Variant, vulns: Option<seq<string>>): string
  {
    match vulns
    case None => Dash
    case Some(keys) => if v == DiffNotifier then Join(SortStrings(keys), Bar) else Join(keys, Bar)
  }

  /** The nine comma-separated fields of one row, in column order; the last
      one carries the row's newline. */
  function Fields(v: Variant, ip: string, os: Entry, s: Service): (f: seq<string>)
    ensures |f| == 9
  {
    [ip, NatToString(s.port), OsText(os), ListText(v, s.hostnames), ListText(v, s.domains),
     EntryText(s.product), EntryText(s.version), VulnsText(v, s.vulns), s.timestamp + "\n"]
  }

  /** The f-string row `ip,port,os,hostnames,domains,product,version,vulns,timestamp\n`.
      It opens with the ip and a comma and ends in a newline, whatever the
      fields hold; when the ip holds no comma, its first two fields read
      back as the ip and the port, which is all the sort key looks at. */
  function Row(v: Variant, ip: string, os: Entry, s: Service): (r: string)
    ensures |r| > |ip| && r[..|ip|] == ip && r[|ip|] == Comma
    ensures r[|r| - 1] == '\n'
    ensures Comma !in ip ==> var f := Split(r, Comma);
      |f| >= 2 && f[0] == ip && ParseDecimal(f[1]) == Some(s.port)
  {
    var f := Fields(v, ip, os, s);
    JoinLast(f, Comma);
    assert Join(f, Comma) == ip + [Comma] + Join(f[1..], Comma);
    DigitsHaveNoSep(NatToString(s.port), Comma);
    ParseNatToString(s.port);
    if Comma !in ip then
      SplitFront(f, Comma);
      Join(f, Comma)
    else
      Join(f, Comma)
  }

  /** `fetch_scan_result`: a failed lookup (`None`) gives no rows, a host
      gives one row per service in `data` order. Every row ends in a
      newline, and when the host's ip holds no comma each row's first two
      fields are that ip and its service's port. */
  function Fetch(v: Variant, host: Option<Host>): (rows: seq<string>)
    ensures host.None? ==> rows == []
    ensures host.Some? ==> |rows| == |host.value.data|
    ensures host.Some? ==> forall i :: 0 <= i < |rows| ==>
      rows[i] == Row(v, host.value.ip, host.value.os, host.value.data[i])
    ensures forall i :: 0 <= i < |rows| ==> |rows[i]| > 0 && rows[i][|rows[i]| - 1] == '\n'
    ensures host.Some? && Comma !in host.value.ip ==> forall i :: 0 <= i < |rows| ==>
      var f := Split(rows[i], Comma);
      |f| >= 2 && f[0] == host.value.ip && ParseDecimal(f[1]) == Some(host.value.data[i].port)
  {
    match host
    case None => []
    case Some(h) => seq(|h.data|, i requires 0 <= i < |h.data| => Row(v, h.ip, h.os, h.data[i]))
  }

  /** How many rows the lookups yield: one per service of every host found. */
  function RowCount(lookups: seq<Option<Host>>): nat
  {
    if |lookups| == 0 then 0
    else
      RowCount(lookups[..|lookups| - 1])
        + (match lookups[|lookups| - 1] case None => 0 case Some(h) => |h.data|)
  }

  /** The main loop over the address list: the rows of every lookup, in
      list order, with failed lookups skipped. There is one row per service
      found, each ending in a newline (the report relies on it, as it
      concatenates the rows without a separator). */
  function Collect(v: Variant, lookups: seq<Option<Host>>): (r: seq<string>)
    ensures |r| == RowCount(lookups)
    ensures forall i :: 0 <= i < |r| ==> |r[i]| > 0 && r[i][|r[i]| - 1] == '\n'
  {
    if |lookups| == 0 then []
    else Collect(v, lookups[..|lookups| - 1]) + Fetch(v, lookups[|lookups| - 1])
  }

  // ---------------------------------------------------------------------
  // properties

  /** No string of the list holds a comma. */
  predicate CommaFreeList(xs: seq<string>)
  {
    forall i :: 0 <= i < |xs| ==> Comma !in xs[i]
  }

  predicate CommaFreeService(s: Service)
  {
    && CommaFreeList(s.hostnames)
    && CommaFreeList(s.domains)
    && (s.product.Given? ==> Comma !in s.product.text)
    && (s.version.Given? ==> Comma !in s.version.text)
    && (s.vulns.Some? ==> CommaFreeList(s.vulns.value))
    && Comma !in s.timestamp
  }

  /** No field of the record holds a comma. */
  predicate CommaFreeHost(ip: string, os: Entry, s: Service)
  {
    && Comma !in ip
    && (os.Given? ==> Comma !in os.text)
    && CommaFreeService(s)
  }

  lemma {:induction false} JoinKeepsOut(xs: seq<string>, sep: char, c: char)
    requires c != sep
    requires forall i :: 0 <= i < |xs| ==> c !in xs[i]
    ensures c !in Join(xs, sep)
  {
    if |xs| > 1 {
      JoinKeepsOut(xs[1..], sep, c);
    }
  }

  lemma VulnsCommaFree(v: Variant, vulns: Option<seq<string>>)
    requires vulns.Some? ==> CommaFreeList(vulns.value)
    ensures Comma !in VulnsText(v, vulns)
  {
    if vulns.Some? {
      var keys := vulns.value;
      var sorted := SortStrings(keys);
      forall i | 0 <= i < |sorted|
        ensures Comma !in sorted[i]
      {
        assert sorted[i] in multiset(keys);
      }
      JoinKeepsOut(keys, Bar, Comma);
      JoinKeepsOut(sorted, Bar, Comma);
    }
  }

  lemma FieldsCommaFree(v: Variant, ip: string, os: Entry, s: Service)
    requires CommaFreeHost(ip, os, s)
    ensures NoSep(Fields(v, ip, os, s), Comma)
  {
    JoinKeepsOut(s.hostnames, Bar, Comma);
    JoinKeepsOut(s.domains, Bar, Comma);
    VulnsCommaFree(v, s.vulns);
    DigitsHaveNoSep(NatToString(s.port), Comma);
  }

  /** Splitting a row on "," gives back its nine fields in column order, with
      the defaults of the script applied, when no field holds a comma. */
  lemma RowSplitsIntoFields(v: Variant, ip: string, os: Entry, s: Service)
    requires CommaFreeHost(ip, os, s)
    ensures var f := Split(Row(v, ip, os, s), Comma);
      && |f| == 9
      && f[0] == ip
      && ParseDecimal(f[1]) == Some(s.port)
      && f[2] == (match os case Absent => "None" case Null => "-" case Given(n) => n)
      && (|s.hostnames| == 0 ==> f[3] == (if v == DiffNotifier then "-" else ""))
      && (|s.hostnames| > 0 ==> f[3] == Join(s.hostnames, '|'))
      && (|s.domains| == 0 ==> f[4] == (if v == DiffNotifier then "-" else ""))
      && (|s.domains| > 0 ==> f[4] == Join(s.domains, '|'))
      && f[5] == (match s.product case Absent => "-" case Null => "None" case Given(t) => t)
      && f[6] == (match s.version case Absent => "-" case Null => "None" case Given(t) => t)
      && (s.vulns.None? ==> f[7] == "-")
      && f[8] == s.timestamp + "\n"
  {
    FieldsCommaFree(v, ip, os, s);
    SplitJoin(Fields(v, ip, os, s), Comma);
    ParseNatToString(s.port);
  }

  /** The diff script's row: "-" for an empty hostname or domain list, and
      the vulnerability ids sorted before they are joined. */
  lemma DiffRowLayout(ip: string, os: Entry, s: Service)
    requires CommaFreeHost(ip, os, s)
    ensures var f := Split(Row(DiffNotifier, ip, os, s), Comma);
      && |f| == 9
      && (|s.hostnames| == 0 ==> f[3] == "-")
      && (|s.domains| == 0 ==> f[4] == "-")
      && (s.vulns.None? ==> f[7] == "-")
      && (s.vulns.Some? ==> f[7] == Join(SortStrings(s.vulns.value), '|'))
  {
    FieldsCommaFree(DiffNotifier, ip, os, s);
    SplitJoin(Fields(DiffNotifier, ip, os, s), Comma);
  }

  /** The plain script's row: lists are joined as they are, so an empty one
      gives an empty field, and the vulnerability ids keep the dict's order. */
  lemma PlainRowLayout(ip: string, os: Entry, s: Service)
    requires CommaFreeHost(ip, os, s)
    ensures var f := Split(Row(PlainNotifier, ip, os, s), Comma);
      && |f| == 9
      && f[3] == Join(s.hostnames, '|')
      && f[4] == Join(s.domains, '|')
      && (s.vulns.None? ==> f[7] == "-")
      && (s.vulns.Some? ==> f[7] == Join(s.vulns.value, '|'))
  {
    FieldsCommaFree(PlainNotifier, ip, os, s);
    SplitJoin(Fields(PlainNotifier, ip, os, s), Comma);
  }

  /** With the diff script, two dicts holding the same vulnerability ids give
      the same text, whatever their iteration order. */
  lemma VulnsOrderIndependent(k1: seq<string>, k2: seq<string>)
    requires multiset(k1) == multiset(k2)
    ensures VulnsText(DiffNotifier, Some(k1)) == VulnsText(DiffNotifier, Some(k2))
  {
    SortedUnique(SortStrings(k1), SortStrings(k2));
  }

  /** The plain script keeps the dict's order: two different non-empty id
      lists, such as the same ids in another order, give different texts as
      long as no id holds the "|" separator. */
  lemma PlainVulnsOrderDependent(k1: seq<string>, k2: seq<string>)
    requires |k1| >= 1 && |k2| >= 1
    requires NoSep(k1, Bar) && NoSep(k2, Bar)
    requires k1 != k2
    ensures VulnsText(PlainNotifier, Some(k1)) != VulnsText(PlainNotifier, Some(k2))
  {
    SplitJoin(k1, Bar);
    SplitJoin(k2, Bar);
  }

  /** The rows of a non-empty address list: those of all but the last
      address, then those of the last. */
  lemma CollectLast(v: Variant, xs: seq<Option<Host>>)
    requires |xs| > 0
    ensures Collect(v, xs) == Collect(v, xs[..|xs| - 1]) + Fetch(v, xs[|xs| - 1])
  {
  }

  lemma {:induction false} CollectAppend(v: Variant, a: seq<Option<Host>>, b: seq<Option<Host>>)
    ensures Collect(v, a + b) == Collect(v, a) + Collect(v, b)
    decreases |b|
  {
    if |b| > 0 {
      var ab := a + b;
      var front := b[..|b| - 1];
      var tail := Fetch(v, b[|b| - 1]);
      assert Collect(v, ab) == Collect(v, a + front) + tail by {
        assert ab[..|ab| - 1] == a + front;
        assert ab[|ab| - 1] == b[|b| - 1];
        CollectLast(v, ab);
      }
      assert Collect(v, b) == Collect(v, front) + tail by {
        CollectLast(v, b);
      }
      CollectAppend(v, a, front);
      assert (Collect(v, a) + Collect(v, front)) + tail == Collect(v, a) + (Collect(v, front) + tail);
    } else {
      assert a + b == a;
    }
  }

  /** A failed lookup contributes no rows and does not disturb the rows of
      the other addresses. */
  lemma FailedLookupSkipped(v: Variant, a: seq<Option<Host>>, b: seq<Option<Host>>)
    ensures Collect(v, a + [None] + b) == Collect(v, a) + Collect(v, b)
  {
    var failed: seq<Option<Host>> := [None];
    var af := a + failed;
    assert Collect(v, af) == Collect(v, a) by {
      assert af[..|af| - 1] == a;
    }
    assert Collect(v, af + b) == Collect(v, af) + Collect(v, b) by {
      CollectAppend(v, af, b);
    }
    assert a + [None] + b == af + b;
  }
}

=== FILE: projection.dfy ===
/** The identity projection (`slice_columns` of the diff script): every
    snapshot line loses its first field (the sequence number) and its last
    field (the timestamp, which carries the newline). */
module Projection {
  import opened Text

  /** Python's `column_list[1:length-1]`: empty for fewer than three fields. */
  function Inner(f: seq<string>): seq<string>
  {
    if |f| >= 2 then f[1..|f| - 1] else []
  }

  /** One line of `slice_columns`. The result is the text strictly between
      the first and the last comma, hence a substring of the line. */
  function SliceRow(line: string): (r: string)
    ensures var f := Split(line, Comma);
      |f| >= 3 ==> line == f[0] + [Comma] + r + [Comma] + f[|f| - 1]
    ensures |Split(line, Comma)| < 3 ==> r == ""
    ensures IsSubstring(r, line)
  {
    SliceRowShape(line);
    Join(Inner(Split(line, Comma)), Comma)
  }

  lemma SliceRowShape(line: string)
    ensures var f := Split(line, Comma); var r := Join(Inner(f), Comma);
      && (|f| >= 3 ==> line == f[0] + [Comma] + r + [Comma] + f[|f| - 1])
      && (|f| < 3 ==> r == "")
      && IsSubstring(r, line)
  {
    var f := Split(line, Comma);
    var r := Join(Inner(f), Comma);
    if |f| >= 3 {
      var x, y := f[0] + [Comma], [Comma] + f[|f| - 1];
      assert line == x + r + y by {
        JoinSplit(line, Comma);
        JoinMiddle(f, Comma);
      }
      SubstringOfConcat(x, r, y);
    } else {
      assert OccursAt(r, line, 0);
    }
  }

  /** `slice_columns`: one projected line per input line, in order. Each is
      a substring of its line: the line with its first and last field cut
      off, or empty when the line has fewer than three fields. */
  function SliceColumns(lines: seq<string>): (r: seq<string>)
    ensures |r| == |lines|
    ensures forall i :: 0 <= i < |r| ==> r[i] == SliceRow(lines[i])
    ensures forall i :: 0 <= i < |r| ==> IsSubstring(r[i], lines[i])
    ensures forall i :: 0 <= i < |r| ==> var f := Split(lines[i], Comma);
      if |f| >= 3 then lines[i] == f[0] + [Comma] + r[i] + [Comma] + f[|f| - 1] else r[i] == ""
  {
    seq(|lines|, i requires 0 <= i < |lines| => SliceRow(lines[i]))
  }

  /** A numbered snapshot line `n,f0,...,f8` projects to `f0,...,f7`: the
      identity columns, without the number and the timestamp. Only the
      timestamp must be free of commas: the cut is made at the first and
      the last comma, so commas inside `f0..f7` stay in the projection. */
  lemma ProjectNumberedRow(n: nat, fields: seq<string>)
    requires |fields| == 9
    requires Comma !in fields[8]
    ensures SliceRow(NatToString(n) + [Comma] + Join(fields, Comma)) == Join(fields[..8], Comma)
  {
    var d := NatToString(n);
    var front := Join(fields[..8], Comma);
    DigitsHaveNoSep(d, Comma);
    JoinLast(fields, Comma);
    assert fields[..9] == fields;
    SplitAfterPiece(d, Join(fields, Comma), Comma);
    SplitLast(front, fields[8], Comma);
    var f := [d] + Split(front, Comma) + [fields[8]];
    assert Split(d + [Comma] + Join(fields, Comma), Comma) == f;
    assert Inner(f) == Split(front, Comma);
    JoinSplit(front, Comma);
  }

  /** Two snapshot lines that differ only in sequence number and timestamp
      have the same projection, whatever commas the other fields hold. */
  lemma VolatileColumnsIgnored(n1: nat, n2: nat, f1: seq<string>, f2: seq<string>)
    requires |f1| == 9 && |f2| == 9
    requires Comma !in f1[8] && Comma !in f2[8]
    requires f1[..8] == f2[..8]
    ensures SliceRow(NatToString(n1) + [Comma] + Join(f1, Comma))
         == SliceRow(NatToString(n2) + [Comma] + Join(f2, Comma))
  {
    ProjectNumberedRow(n1, f1);
    ProjectNumberedRow(n2, f2);
  }
}

=== FILE: report.dfy ===
/** The report builders and the top-level flow of both scripts: look up every
    address, normalise, sort and number the rows, then either list them all
    (plain script, or first run of the diff script) or report the decrements
    and increments against the previous snapshot. The lookups, the previous
    snapshot, the date and the line diff are parameters; writing the files
    and uploading the report are not modelled. */
module Report {
  import opened Wrappers
  import opened Text
  import opened Normalizer
  import opened Sorter
  import opened Projection
  import opened Diff

  const Rule: string := "========================================\n"
  const ColumnHeader: string := "No, IP, Port, OS, Hostnames, Domains, Product, Version, Vulns, Timestamp.\n"
  const NoResults: string := "No results\n"
  const DecrementsHeader: string := "### Following shows DECREMENT from last results\n" + ColumnHeader
  const IncrementsHeader: string := "### Following shows INCREMENT from last results\n" + ColumnHeader
  const Footer: string := Rule + "Have a good day!"

  /** Appending the rows one after another (`contents += item`). */
  function Concat(rows: seq<string>): string
  {
    if |rows| == 0 then "" else rows[0] + Concat(rows[1..])
  }

  lemma {:induction false} ConcatAppend(a: seq<string>, b: seq<string>)
    ensures Concat(a + b) == Concat(a) + Concat(b)
  {
    if |a| > 0 {
      assert (a + b)[1..] == a[1..] + b;
      ConcatAppend(a[1..], b);
    } else {
      assert a + b == b;
    }
  }

  /** The concatenation holds every row, in order, at its own place. */
  lemma {:induction false} ConcatAt(rows: seq<string>, i: int)
    requires 0 <= i < |rows|
    ensures Concat(rows) == Concat(rows[..i]) + rows[i] + Concat(rows[i + 1..])
  {
    var tail := [rows[i]] + rows[i + 1..];
    var a, b := Concat(rows[..i]), Concat(rows[i + 1..]);
    assert Concat(rows) == a + Concat(tail) by {
      assert rows == rows[..i] + tail;
      ConcatAppend(rows[..i], tail);
    }
    assert Concat(tail) == rows[i] + b by {
      assert tail[1..] == rows[i + 1..];
    }
    assert a + (rows[i] + b) == a + rows[i] + b;
  }

  /** `if not section: section = "No results\n"`. */
  function OrNoResults(section: string): string
  {
    if |section| == 0 then NoResults else section
  }

  /** The header of the diff script, dated. */
  function DiffHeader(today: string): string
  {
    "Shodan notifier got following scan results on " + today + ".\n"
      + "If previous result exists, diffs are only shown.\n" + Rule
  }

  /** The header of the plain script, dated, with the column line. */
  function PlainHeader(today: string): string
  {
    "Shodan notifier got following scan results on " + today + ".\n" + Rule + ColumnHeader
  }

  /** The text `get_diffs` returns for the recovered rows. */
  function DiffContents(sections: Sections): string
  {
    DecrementsHeader + OrNoResults(Concat(sections.decrements)) + "\n"
      + IncrementsHeader + OrNoResults(Concat(sections.increments))
  }

  /** The diff script's report: with no previous snapshot, the column line
      and every row; otherwise the diff contents. `None` is the `NameError`
      of `get_diffs`, the only way the report can fail. Every report opens
      with the dated header and closes with the footer. */
  function DiffReport(today: string, sorted: seq<string>, last: Option<seq<string>>, script: seq<Op>): (r: Option<string>)
    ensures r.None? <==> last.Some? && DiffSections(last.value, sorted, script).None?
    ensures r.Some? ==> DiffHeader(today) <= r.value
    ensures r.Some? ==> |r.value| >= |Footer| && r.value[|r.value| - |Footer|..] == Footer
  {
    match last
    case None => Some(DiffHeader(today) + ColumnHeader + Concat(sorted) + Footer)
    case Some(prev) =>
      match DiffSections(prev, sorted, script)
      case None => None
      case Some(sections) => Some(DiffHeader(today) + DiffContents(sections) + Footer)
  }

  /** The plain script's report: the dated header, then the rows, then the
      footer, with nothing else in between. */
  function PlainReport(today: string, sorted: seq<string>): (r: string)
    ensures PlainHeader(today) <= r
    ensures |r| == |PlainHeader(today)| + |Concat(sorted)| + |Footer|
    ensures r[|r| - |Footer|..] == Footer
  {
    PlainHeader(today) + Concat(sorted) + Footer
  }

  // ---------------------------------------------------------------------
  // whole runs

  /** What a run of the diff script produces: the report and the snapshot it
      writes to `last_result.csv` and to the dated log file. */
  datatype Run = Run(report: string, snapshot: seq<string>)

  /** The sorted, numbered snapshot of one run (empty when sorting fails). */
  function Snapshot(v: Variant, lookups: seq<Option<Host>>): seq<string>
  {
    SortResult(Collect(v, lookups)).GetOr([])
  }

  /** One run of the diff script. `None` is an exception: a row without a
      sortable key, or the `NameError` of `get_diffs`, which needs a previous
      snapshot. A successful run saves one numbered line per row. */
  function RunDiff(today: string, lookups: seq<Option<Host>>, last: Option<seq<string>>, script: seq<Op>): (r: Option<Run>)
    ensures r.None? ==> !Keyed(Collect(DiffNotifier, lookups)) || last.Some?
    ensures r.Some? ==> r.value.snapshot == Snapshot(DiffNotifier, lookups)
    ensures r.Some? ==> |r.value.snapshot| == |Collect(DiffNotifier, lookups)|
    ensures r.Some? ==> DiffHeader(today) <= r.value.report
  {
    match SortResult(Collect(DiffNotifier, lookups))
    case None => None
    case Some(sorted) =>
      match DiffReport(today, sorted, last, script)
      case None => None
      case Some(report) => Some(Run(report, sorted))
  }

  /** One run of the plain script: it fails exactly when some row has no
      sort key. */
  function RunPlain(today: string, lookups: seq<Option<Host>>): (r: Option<string>)
    ensures r.None? <==> !Keyed(Collect(PlainNotifier, lookups))
    ensures r.Some? ==> PlainHeader(today) <= r.value
  {
    match SortResult(Collect(PlainNotifier, lookups))
    case None => None
    case Some(sorted) => Some(PlainReport(today, sorted))
  }

  // ---------------------------------------------------------------------
  // properties

  /** No looked-up host has a comma in its ip, the one field before the
      port. */
  predicate IpsCommaFree(lookups: seq<Option<Host>>)
  {
    forall i :: 0 <= i < |lookups| && lookups[i].Some? ==> Comma !in lookups[i].value.ip
  }

  /** The sort key of a row is its host's ip and its service's port,
      whatever the later fields hold. */
  lemma RowKey(v: Variant, ip: string, os: Entry, s: Service)
    requires Comma !in ip
    ensures ParseKey(Row(v, ip, os, s)) == Some(Key(ip, s.port))
  {
  }

  /** Every normalised row sorts by its host's ip and its service's port. */
  lemma {:induction false} CollectedRowsKeyed(v: Variant, lookups: seq<Option<Host>>)
    requires IpsCommaFree(lookups)
    ensures Keyed(Collect(v, lookups))
  {
    if |lookups| > 0 {
      var front := lookups[..|lookups| - 1];
      var h := lookups[|lookups| - 1];
      assert IpsCommaFree(front) by {
        forall i | 0 <= i < |front| && front[i].Some?
          ensures Comma !in front[i].value.ip
        {
          assert front[i] == lookups[i];
        }
      }
      CollectedRowsKeyed(v, front);
      var rows := Fetch(v, h);
      forall i | 0 <= i < |rows|
        ensures ParseKey(rows[i]).Some?
      {
        RowKey(v, h.value.ip, h.value.os, h.value.data[i]);
      }
      assert Collect(v, lookups) == Collect(v, front) + rows;
    }
  }

  /** First run of the diff script: the column line, then every numbered
      row in order, between header and footer. */
  lemma FirstRunListsEveryRow(today: string, sorted: seq<string>, script: seq<Op>, i: int)
    requires 0 <= i < |sorted|
    ensures DiffReport(today, sorted, None, script)
         == Some(DiffHeader(today) + ColumnHeader
                 + (Concat(sorted[..i]) + sorted[i] + Concat(sorted[i + 1..])) + Footer)
  {
    ConcatAt(sorted, i);
  }

  /** The plain script's report lists every numbered row in order. */
  lemma PlainReportListsEveryRow(today: string, sorted: seq<string>, i: int)
    requires 0 <= i < |sorted|
    ensures PlainReport(today, sorted)
         == PlainHeader(today) + (Concat(sorted[..i]) + sorted[i] + Concat(sorted[i + 1..]))
            + Footer
  {
    ConcatAt(sorted, i);
  }

  /** With a previous snapshot, the report is the decrement section then the
      increment section, each holding the recovered rows in diff order or
      the placeholder when there are none. */
  lemma IncrementalReportLayout(today: string, prev: seq<string>, sorted: seq<string>, script: seq<Op>)
    requires WellFormed(script, SliceColumns(prev), SliceColumns(sorted))
    ensures Recoverable(prev, DelLines(script)) && Recoverable(sorted, InsLines(script))
    ensures DiffReport(today, sorted, Some(prev), script)
         == Some(DiffHeader(today)
                 + (DecrementsHeader + OrNoResults(Concat(RecoverAll(prev, DelLines(script)))) + "\n"
                    + IncrementsHeader + OrNoResults(Concat(RecoverAll(sorted, InsLines(script)))))
                 + Footer)
  {
    DiffSectionsRecover(prev, sorted, script);
  }

  /** Snapshots equal up to sequence numbers and timestamps give a report
      whose two sections both read "No results". */
  lemma UnchangedReport(today: string, prev: seq<string>, sorted: seq<string>, script: seq<Op>)
    requires WellFormed(script, SliceColumns(prev), SliceColumns(sorted))
    requires SliceColumns(prev) == SliceColumns(sorted)
    ensures DiffReport(today, sorted, Some(prev), script)
         == Some(DiffHeader(today)
                 + (DecrementsHeader + "No results\n" + "\n" + IncrementsHeader + "No results\n")
                 + Footer)
  {
    EqualProjectionsNoDiff(prev, sorted, script);
  }

  /** A run of the plain script never fails on hosts whose ip has no
      comma, and its report lists the sorted, numbered rows. */
  lemma PlainRunSucceeds(today: string, lookups: seq<Option<Host>>)
    requires IpsCommaFree(lookups)
    ensures RunPlain(today, lookups).Some?
    ensures SortResult(Collect(PlainNotifier, lookups)).Some?
    ensures RunPlain(today, lookups).value
         == PlainHeader(today) + Concat(SortResult(Collect(PlainNotifier, lookups)).value) + Footer
  {
    CollectedRowsKeyed(PlainNotifier, lookups);
  }

  /** A run of the diff script never fails on hosts whose ip has no comma
      when the line diff is well formed, and it persists the sorted,
      numbered rows. */
  lemma DiffRunSucceeds(today: string, lookups: seq<Option<Host>>, last: Option<seq<string>>, script: seq<Op>)
    requires IpsCommaFree(lookups)
    requires last.Some? ==> WellFormed(script, SliceColumns(last.value), SliceColumns(Snapshot(DiffNotifier, lookups)))
    ensures SortResult(Collect(DiffNotifier, lookups)).Some?
    ensures RunDiff(today, lookups, last, script).Some?
    ensures RunDiff(today, lookups, last, script).value.snapshot == SortResult(Collect(DiffNotifier, lookups)).value
  {
    CollectedRowsKeyed(DiffNotifier, lookups);
    if last.Some? {
      DiffSectionsRecover(last.value, Snapshot(DiffNotifier, lookups), script);
    }
  }
}

=== FILE: sorter.dfy ===
/** The snapshot sorter (`sort_result`, identical in both scripts): rows are
    split on ",", sorted stably by (ip as str, int(port)), numbered from 1 and
    joined again. */
module Sorter {
  import opened Wrappers
  import opened Text

  /** The sort key `(x[0], int(x[1]))`. */
  datatype Key = Key(ip: string, port: nat)

  /** The key of one row; `None` stands for the `IndexError` (fewer than two
      fields) or `ValueError` (port not a decimal number) Python raises. */
  function ParseKey(row: string): (k: Option<Key>)
    ensures k.Some? <==> |Split(row, Comma)| >= 2 && ParseDecimal(Split(row, Comma)[1]).Some?
    ensures k.Some? ==> k.value.ip == Split(row, Comma)[0]
    ensures k.Some? ==> ParseDecimal(Split(row, Comma)[1]).value == k.value.port
  {
    var f := Split(row, Comma);
    if |f| < 2 then None
    else
      match ParseDecimal(f[1])
      case None => None
      case Some(p) => Some(Key(f[0], p))
  }

  /** Every row has a key. */
  predicate Keyed(rows: seq<string>)
  {
    forall i :: 0 <= i < |rows| ==> ParseKey(rows[i]).Some?
  }

  function KeyOf(row: string): Key
    requires ParseKey(row).Some?
  {
    ParseKey(row).value
  }

  /** Python's tuple comparison `(ip, port) <= (ip', port')`. */
  predicate KeyLe(a: Key, b: Key)
  {
    StrLt(a.ip, b.ip) || (a.ip == b.ip && a.port <= b.port)
  }

  lemma KeyLeTotal(a: Key, b: Key)
    ensures KeyLe(a, b) || KeyLe(b, a)
  {
    if a.ip != b.ip {
      StrLtTotal(a.ip, b.ip);
    }
  }

  lemma KeyLeTransitive(a: Key, b: Key, c: Key)
    requires KeyLe(a, b) && KeyLe(b, c)
    ensures KeyLe(a, c)
  {
    if StrLt(a.ip, b.ip) && StrLt(b.ip, c.ip) {
      StrLtTransitive(a.ip, b.ip, c.ip);
    }
  }

  /** Adjacent rows are in key order. */
  predicate SortedRows(rows: seq<string>)
    requires Keyed(rows)
  {
    forall i :: 0 < i < |rows| ==> KeyLe(KeyOf(rows[i - 1]), KeyOf(rows[i]))
  }

  /** Inserts `x` in front of the first row whose key is not below its own. */
  function Insert(x: string, s: seq<string>): (r: seq<string>)
    requires ParseKey(x).Some? && Keyed(s) && SortedRows(s)
    ensures Keyed(r) && SortedRows(r)
    ensures multiset(r) == multiset(s) + multiset{x}
    ensures |r| == |s| + 1
    ensures r[0] == x || (|s| > 0 && r[0] == s[0])
  {
    if |s| == 0 then [x]
    else if KeyLe(KeyOf(x), KeyOf(s[0])) then [x] + s
    else
      KeyLeTotal(KeyOf(x), KeyOf(s[0]));
      SortedTail(s);
      var rest := Insert(x, s[1..]);
      assert s == [s[0]] + s[1..];
      ConsSorted(s[0], rest);
      [s[0]] + rest
  }

  /** A row whose key is at most the head's can go in front. */
  lemma ConsSorted(a: string, rest: seq<string>)
    requires ParseKey(a).Some? && Keyed(rest) && SortedRows(rest)
    requires |rest| > 0 ==> KeyLe(KeyOf(a), KeyOf(rest[0]))
    ensures Keyed([a] + rest) && SortedRows([a] + rest)
  {
    assert forall i :: 0 < i < |[a] + rest| ==> ([a] + rest)[i] == rest[i - 1];
  }

  /** Python's stable `sorted(matrix, key=...)`. */
  function Sort(s: seq<string>): (r: seq<string>)
    requires Keyed(s)
    ensures Keyed(r) && SortedRows(r)
    ensures multiset(r) == multiset(s)
    ensures |r| == |s|
  {
    if |s| == 0 then []
    else
      assert s == [s[0]] + s[1..];
      Insert(s[0], Sort(s[1..]))
  }

  /** The rows of `s` whose key is `k`, in order. */
  function FilterKey(s: seq<string>, k: Key): seq<string>
    requires Keyed(s)
  {
    if |s| == 0 then []
    else (if KeyOf(s[0]) == k then [s[0]] else []) + FilterKey(s[1..], k)
  }

  lemma SwapFront<T>(xs: seq<T>, ys: seq<T>, tail: seq<T>)
    requires xs == [] || ys == []
    ensures ys + (xs + tail) == xs + (ys + tail)
  {
    if xs == [] {
      assert ys + (xs + tail) == ys + tail;
    } else {
      assert ys + (xs + tail) == xs + tail;
    }
  }

  /** The tail of key-ordered rows is key-ordered. */
  lemma SortedTail(s: seq<string>)
    requires Keyed(s) && SortedRows(s) && |s| > 0
    ensures Keyed(s[1..]) && SortedRows(s[1..])
  {
    assert forall i :: 0 <= i < |s| - 1 ==> s[1..][i] == s[i + 1];
  }

  /** Inserting a row that sorts after the head keeps the head in front. */
  lemma InsertBehindHead(x: string, s: seq<string>)
    requires ParseKey(x).Some? && Keyed(s) && SortedRows(s)
    requires |s| > 0 && !KeyLe(KeyOf(x), KeyOf(s[0]))
    ensures Insert(x, s) == [s[0]] + Insert(x, s[1..])
  {
  }

  /** Filtering a row list whose head is `a`. */
  lemma FilterHead(a: string, rest: seq<string>, k: Key)
    requires Keyed([a] + rest)
    ensures ParseKey(a).Some? && Keyed(rest)
    ensures FilterKey([a] + rest, k) == (if KeyOf(a) == k then [a] else []) + FilterKey(rest, k)
  {
    assert ([a] + rest)[1..] == rest;
    assert ([a] + rest)[0] == a;
    assert forall i :: 0 <= i < |rest| ==> rest[i] == ([a] + rest)[i + 1];
  }

  lemma {:induction false} InsertFilter(x: string, s: seq<string>, k: Key)
    requires ParseKey(x).Some? && Keyed(s) && SortedRows(s)
    ensures FilterKey(Insert(x, s), k) == (if KeyOf(x) == k then [x] else []) + FilterKey(s, k)
  {
    var xs := if KeyOf(x) == k then [x] else [];
    if |s| > 0 && !KeyLe(KeyOf(x), KeyOf(s[0])) {
      var ys := if KeyOf(s[0]) == k then [s[0]] else [];
      SortedTail(s);
      var tail := FilterKey(s[1..], k);
      assert FilterKey(Insert(x, s), k) == ys + (xs + tail) by {
        var rest := Insert(x, s[1..]);
        InsertBehindHead(x, s);
        FilterHead(s[0], rest, k);
        InsertFilter(x, s[1..], k);
      }
      assert FilterKey(s, k) == ys + tail by {
        assert s == [s[0]] + s[1..];
        FilterHead(s[0], s[1..], k);
      }
      // x sorts after s[0], so at most one of them carries the key k
      assert xs == [] || ys == [];
      SwapFront(xs, ys, tail);
    } else if |s| > 0 {
      FilterHead(x, s, k);
    }
  }

  /** Sorting is stable: rows sharing a key keep their relative order. */
  lemma {:induction false} SortStable(s: seq<string>, k: Key)
    requires Keyed(s)
    ensures FilterKey(Sort(s), k) == FilterKey(s, k)
  {
    if |s| > 0 {
      SortStable(s[1..], k);
      InsertFilter(s[0], Sort(s[1..]), k);
    }
  }

  /** Sorted means every earlier row's key is at most every later row's. */
  lemma {:induction false} SortedPairwise(s: seq<string>, i: int, j: int)
    requires Keyed(s) && SortedRows(s)
    requires 0 <= i < j < |s|
    ensures KeyLe(KeyOf(s[i]), KeyOf(s[j]))
    decreases j - i
  {
    if i + 1 < j {
      SortedPairwise(s, i + 1, j);
      KeyLeTransitive(KeyOf(s[i]), KeyOf(s[i + 1]), KeyOf(s[j]));
    }
  }

  /** Sorting rows that are already in key order changes nothing. */
  lemma {:induction false} SortIdempotent(s: seq<string>)
    requires Keyed(s) && SortedRows(s)
    ensures Sort(s) == s
  {
    if |s| > 0 {
      SortIdempotent(s[1..]);
      assert s == [s[0]] + s[1..];
    }
  }

  /** The sorted rows, or `None` when some row has no key (Python raises
      before sorting anything). */
  function SortRows(rows: seq<string>): (r: Option<seq<string>>)
    ensures r.None? <==> !Keyed(rows)
    ensures r.Some? ==> |r.value| == |rows| && multiset(r.value) == multiset(rows)
    ensures r.Some? ==> Keyed(r.value) && SortedRows(r.value)
  {
    if Keyed(rows) then Some(Sort(rows)) else None
  }

  // ---------------------------------------------------------------------
  // numbering

  /** `item.insert(0, str(count))` followed by `",".join(item)`. */
  function NumberRow(n: nat, row: string): (r: string)
    ensures r == NatToString(n) + [Comma] + row
  {
    var f := [NatToString(n)] + Split(row, Comma);
    assert f[1..] == Split(row, Comma);
    JoinSplit(row, Comma);
    Join(f, Comma)
  }

  /** Numbers the rows `1..N` in order. */
  function Number(rows: seq<string>): (r: seq<string>)
    ensures |r| == |rows|
    ensures forall i :: 0 <= i < |r| ==> r[i] == NatToString(i + 1) + [Comma] + rows[i]
  {
    seq(|rows|, i requires 0 <= i < |rows| => NumberRow(i + 1, rows[i]))
  }

  /** `sort_result`. */
  function SortResult(rows: seq<string>): (r: Option<seq<string>>)
    ensures r.None? <==> !Keyed(rows)
    ensures r.Some? ==> |r.value| == |rows|
  {
    match SortRows(rows)
    case None => None
    case Some(sorted) => Some(Number(sorted))
  }

  /** The first field of a numbered row (its sequence number). */
  function NumberField(line: string): string
  {
    Split(line, Comma)[0]
  }

  /** Everything after the first field: `",".join(line.split(",")[1:])`. */
  function StripNumber(line: string): string
  {
    Join(Split(line, Comma)[1..], Comma)
  }

  function Unnumbered(out: seq<string>): (r: seq<string>)
    ensures |r| == |out|
  {
    seq(|out|, i requires 0 <= i < |out| => StripNumber(out[i]))
  }

  /** The number prefix of a numbered row reads back as `n`, and dropping it
      gives the row back. */
  lemma NumberRowInverse(n: nat, row: string)
    ensures NumberField(NumberRow(n, row)) == NatToString(n)
    ensures ParseDecimal(NumberField(NumberRow(n, row))) == Some(n)
    ensures StripNumber(NumberRow(n, row)) == row
  {
    var d := NatToString(n);
    DigitsHaveNoSep(d, Comma);
    SplitAfterPiece(d, row, Comma);
    assert ([d] + Split(row, Comma))[1..] == Split(row, Comma);
    JoinSplit(row, Comma);
    ParseNatToString(n);
  }

  /** What `sort_result` promises: the output has one line per input row,
      line i carries the number i+1 and then a row; the rows are the input
      rearranged, in key order, with rows of equal key in input order. */
  lemma SortResultCorrect(rows: seq<string>)
    requires Keyed(rows)
    ensures SortResult(rows).Some?
    ensures var out := SortResult(rows).value;
      && |out| == |rows|
      && (forall i :: 0 <= i < |out| ==> NumberField(out[i]) == NatToString(i + 1))
      && (forall i :: 0 <= i < |out| ==> out[i] == NumberField(out[i]) + [Comma] + Unnumbered(out)[i])
      && multiset(Unnumbered(out)) == multiset(rows)
      && Keyed(Unnumbered(out))
      && (forall i, j :: 0 <= i < j < |out| ==>
            KeyLe(KeyOf(Unnumbered(out)[i]), KeyOf(Unnumbered(out)[j])))
      && (forall k :: FilterKey(Unnumbered(out), k) == FilterKey(rows, k))
  {
    var sorted := Sort(rows);
    var out := SortResult(rows).value;
    assert out == Number(sorted);
    forall i | 0 <= i < |out|
      ensures NumberField(out[i]) == NatToString(i + 1)
      ensures Unnumbered(out)[i] == sorted[i]
    {
      NumberRowInverse(i + 1, sorted[i]);
    }
    assert Unnumbered(out) == sorted;
    forall i, j | 0 <= i < j < |out|
      ensures KeyLe(KeyOf(sorted[i]), KeyOf(sorted[j]))
    {
      SortedPairwise(sorted, i, j);
    }
    forall k
      ensures FilterKey(sorted, k) == FilterKey(rows, k)
    {
      SortStable(rows, k);
    }
  }
}

=== FILE: text.dfy ===
/** String primitives the scripts rely on: `str.split`/`str.join` with a
    one-character separator, decimal rendering and parsing of ports,
    Python's code-point ordering of strings, and the `in` substring test. */
module Text {
  import opened Wrappers

  // ---------------------------------------------------------------------
  // join and split

  /** The field separator of every row the scripts build and read. */
  const Comma: char := ','

  /** Python's `sep.join(parts)`. */
  function Join(parts: seq<string>, sep: char): string
  {
    if |parts| == 0 then ""
    else if |parts| == 1 then parts[0]
    else parts[0] + [sep] + Join(parts[1..], sep)
  }

  /** Python's `s.split(sep)`: never empty, and no piece holds the separator. */
  function Split(s: string, sep: char): (parts: seq<string>)
    ensures |parts| >= 1
    ensures forall i :: 0 <= i < |parts| ==> sep !in parts[i]
  {
    if |s| == 0 then [""]
    else
      var rest := Split(s[1..], sep);
      if s[0] == sep then [""] + rest
      else
        var head := [s[0]] + rest[0];
        assert sep !in head;
        [head] + rest[1..]
  }

  /** Every piece of `parts` is free of `sep`. */
  predicate NoSep(parts: seq<string>, sep: char)
  {
    forall i :: 0 <= i < |parts| ==> sep !in parts[i]
  }

  lemma JoinConsChar(c: char, x: string, tail: seq<string>, sep: char)
    ensures Join([[c] + x] + tail, sep) == [c] + Join([x] + tail, sep)
  {
    if |tail| > 0 {
      assert ([[c] + x] + tail)[1..] == tail;
      assert ([x] + tail)[1..] == tail;
    }
  }

  /** Joining the pieces of a split gives the string back. */
  lemma {:induction false} JoinSplit(s: string, sep: char)
    ensures Join(Split(s, sep), sep) == s
  {
    if |s| > 0 {
      var rest := Split(s[1..], sep);
      JoinSplit(s[1..], sep);
      if s[0] == sep {
        assert ([""] + rest)[1..] == rest;
      } else {
        JoinConsChar(s[0], rest[0], rest[1..], sep);
        assert [rest[0]] + rest[1..] == rest;
      }
    }
  }

  lemma {:induction false} SplitNoSep(a: string, sep: char)
    requires sep !in a
    ensures Split(a, sep) == [a]
  {
    if |a| > 0 {
      SplitNoSep(a[1..], sep);
      assert [a[0]] + a[1..] == a;
    }
  }

  lemma {:induction false} SplitAfterPiece(a: string, b: string, sep: char)
    requires sep !in a
    ensures Split(a + [sep] + b, sep) == [a] + Split(b, sep)
  {
    if |a| == 0 {
      assert a + [sep] + b == [sep] + b;
      assert ([sep] + b)[1..] == b;
    } else {
      assert (a + [sep] + b)[1..] == a[1..] + [sep] + b;
      SplitAfterPiece(a[1..], b, sep);
      assert [a[0]] + a[1..] == a;
    }
  }

  /** Splitting a join recovers the pieces when none holds the separator. */
  lemma {:induction false} SplitJoin(parts: seq<string>, sep: char)
    requires |parts| >= 1
    requires NoSep(parts, sep)
    ensures Split(Join(parts, sep), sep) == parts
  {
    if |parts| == 1 {
      SplitNoSep(parts[0], sep);
    } else {
      SplitJoin(parts[1..], sep);
      SplitAfterPiece(parts[0], Join(parts[1..], sep), sep);
      assert [parts[0]] + parts[1..] == parts;
    }
  }

  /** A separator-free last piece splits off the end, whatever the front
      holds. */
  lemma {:induction false} SplitLast(a: string, b: string, sep: char)
    requires sep !in b
    ensures Split(a + [sep] + b, sep) == Split(a, sep) + [b]
  {
    if |a| == 0 {
      assert a + [sep] + b == [sep] + b;
      assert ([sep] + b)[1..] == b;
      SplitNoSep(b, sep);
    } else {
      var tail := Split(a[1..], sep);
      assert (a + [sep] + b)[1..] == a[1..] + [sep] + b;
      SplitLast(a[1..], b, sep);
      if a[0] != sep {
        assert (tail + [b])[0] == tail[0];
        assert (tail + [b])[1..] == tail[1..] + [b];
      }
    }
  }

  /** The first two pieces of a join come back from the split as long as
      they hold no separator, whatever the later pieces hold. */
  lemma {:induction false} SplitFront(parts: seq<string>, sep: char)
    requires |parts| >= 2
    requires sep !in parts[0] && sep !in parts[1]
    ensures var f := Split(Join(parts, sep), sep);
      |f| >= 2 && f[0] == parts[0] && f[1] == parts[1]
  {
    var tail := parts[1..];
    assert Join(parts, sep) == parts[0] + [sep] + Join(tail, sep);
    SplitAfterPiece(parts[0], Join(tail, sep), sep);
    if |tail| == 1 {
      SplitNoSep(parts[1], sep);
    } else {
      assert Join(tail, sep) == parts[1] + [sep] + Join(tail[1..], sep);
      SplitAfterPiece(parts[1], Join(tail[1..], sep), sep);
    }
  }

  /** A join splits into its last piece and the join of the others. */
  lemma {:induction false} JoinLast(parts: seq<string>, sep: char)
    requires |parts| >= 2
    ensures Join(parts, sep) == Join(parts[..|parts| - 1], sep) + [sep] + parts[|parts| - 1]
  {
    if |parts| > 2 {
      JoinLast(parts[1..], sep);
      assert parts[1..][..|parts| - 2] == parts[..|parts| - 1][1..];
    }
  }

  /** A join of three or more pieces is its first piece, the join of the
      inner pieces and its last piece, separated. */
  lemma JoinMiddle(parts: seq<string>, sep: char)
    requires |parts| >= 3
    ensures Join(parts, sep)
         == parts[0] + [sep] + Join(parts[1..|parts| - 1], sep) + [sep] + parts[|parts| - 1]
  {
    var tail := parts[1..];
    assert Join(parts, sep) == parts[0] + [sep] + Join(tail, sep);
    JoinLast(tail, sep);
    assert tail[..|tail| - 1] == parts[1..|parts| - 1];
  }

  // ---------------------------------------------------------------------
  // decimal numbers

  predicate IsDigit(c: char)
  {
    '0' <= c <= '9'
  }

  predicate AllDigits(s: string)
  {
    forall i :: 0 <= i < |s| ==> IsDigit(s[i])
  }

  function DigitChar(d: nat): (c: char)
    requires d < 10
    ensures IsDigit(c)
  {
    ('0' as int + d) as char
  }

  function DigitValue(c: char): nat
    requires IsDigit(c)
  {
    c as int - '0' as int
  }

  /** Python's `str(n)` for a non-negative integer. */
  function NatToString(n: nat): (s: string)
    ensures |s| >= 1
    ensures AllDigits(s)
  {
    if n < 10 then [DigitChar(n)]
    else NatToString(n / 10) + [DigitChar(n % 10)]
  }

  function DigitsValue(s: string): nat
    requires AllDigits(s)
  {
    if |s| == 0 then 0
    else DigitsValue(s[..|s| - 1]) * 10 + DigitValue(s[|s| - 1])
  }

  /** Python's `int(s)` on a string of decimal digits; `None` stands for the
      `ValueError` it raises on an empty or non-digit string. */
  function ParseDecimal(s: string): (r: Option<nat>)
    ensures r.Some? <==> |s| > 0 && AllDigits(s)
  {
    if |s| > 0 && AllDigits(s) then Some(DigitsValue(s)) else None
  }

  lemma {:induction false} DigitsOfNat(n: nat)
    ensures DigitsValue(NatToString(n)) == n
  {
    if n >= 10 {
      var s := NatToString(n / 10);
      DigitsOfNat(n / 10);
      assert (s + [DigitChar(n % 10)])[..|s|] == s;
    }
  }

  /** `int(str(n)) == n`. */
  lemma ParseNatToString(n: nat)
    ensures ParseDecimal(NatToString(n)) == Some(n)
  {
    DigitsOfNat(n);
  }

  lemma DigitsHaveNoSep(s: string, sep: char)
    requires AllDigits(s)
    requires !IsDigit(sep)
    ensures sep !in s
  {
  }

  // ---------------------------------------------------------------------
  // Python's ordering of str values (code point by code point)

  predicate StrLt(a: string, b: string)
  {
    if |a| == 0 then |b| > 0
    else if |b| == 0 then false
    else if a[0] != b[0] then a[0] < b[0]
    else StrLt(a[1..], b[1..])
  }

  predicate StrLe(a: string, b: string)
  {
    a == b || StrLt(a, b)
  }

  lemma {:induction false} StrLtIrreflexive(a: string)
    ensures !StrLt(a, a)
  {
    if |a| > 0 {
      StrLtIrreflexive(a[1..]);
    }
  }

  lemma {:induction false} StrLtAsymmetric(a: string, b: string)
    ensures !(StrLt(a, b) && StrLt(b, a))
  {
    if |a| > 0 && |b| > 0 && a[0] == b[0] {
      StrLtAsymmetric(a[1..], b[1..]);
    }
  }

  lemma {:induction false} StrLtTransitive(a: string, b: string, c: string)
    requires StrLt(a, b) && StrLt(b, c)
    ensures StrLt(a, c)
  {
    if |a| > 0 && a[0] == b[0] && b[0] == c[0] {
      StrLtTransitive(a[1..], b[1..], c[1..]);
    }
  }

  lemma {:induction false} StrLtTotal(a: string, b: string)
    requires a != b
    ensures StrLt(a, b) || StrLt(b, a)
  {
    if |a| > 0 && |b| > 0 && a[0] == b[0] {
      assert a == [a[0]] + a[1..];
      assert b == [b[0]] + b[1..];
      StrLtTotal(a[1..], b[1..]);
    }
  }

  // ---------------------------------------------------------------------
  // Python's `needle in hay` on strings

  predicate OccursAt(needle: string, hay: string, i: int)
  {
    0 <= i <= |hay| - |needle| && hay[i..i + |needle|] == needle
  }

  predicate IsSubstring(needle: string, hay: string)
  {
    exists i :: 0 <= i <= |hay| - |needle| && OccursAt(needle, hay, i)
  }

  lemma SubstringOfConcat(x: string, a: string, y: string)
    ensures IsSubstring(a, x + a + y)
  {
    var hay := x + a + y;
    assert hay[|x|..|x| + |a|] == a;
    assert OccursAt(a, hay, |x|);
  }
}

=== FILE: wrappers.dfy ===
/** The optional-value datatype used for Python's `None` results and for
    operations that raise in the original program. */
module Wrappers {

  datatype Option<+T> = None | Some(value: T) {

    /** Returns the wrapped value, or `default` when there is none
        (Python's `dict.get(key, default)`). */
    function GetOr(default: T): T
    {
      match this
      case Some(v) => v
      case None => default
    }
  }
}
